=== FILE: README.md ===
# shop-web admin console — a Dafny model

This project models the client-side logic of the shop-web Angular admin console:

- the session store that derives authentication, role and expiry from a JWT;
- the admin route guard;
- the catalog product query;
- the admin product list page: filters, sorting, paging with its clamp, and the active-flag toggle;
- the product create/edit form: validation, the create-or-update choice, the eager image upload;
- the editor page's route handling;
- the login screen;
- the upload-progress event mapping.

Each screen is a pure state machine. A handler takes the current view and an event and returns `Step(view, effects)`; the login screen instead returns its view with the login call it starts, and on the reply also the new session and the navigation. The effects are data: the HTTP calls and navigations the handler starts. A backend answer arrives as a later event (`OnLoaded`, `OnSaved`, `OnToggled`, ...).

JavaScript's value semantics are written out in module `Js`:
- `??` and `?.`;
- truthiness;
- numbers with NaN and the infinities;
- `<=` with NaN.

The string operations the console uses are written out in module `Strings`:
- `trim`, with the ECMAScript white-space set;
- `toUpperCase`;
- `split` on one character;
- `replace(/x/g, y)`;
- `.length` in UTF-16 code units;
- `String(n)`.

Browser and language functions the code calls are parameters of the model:
- `atob` with `decodeURIComponent`;
- `JSON.parse`;
- `Number`;
- the `Validators.email` pattern;
- `Date.now()`.

An exception that escapes a derived value is the `Threw` case of `Auth.Eval`.

Behaviour of the code that the model keeps, where a reader might expect otherwise:

- The product form uploads the image as soon as a file is picked (`onPickImage`), not as a first step of saving. A save sends whatever image URL the last upload left, or none after a failed upload.
- The list page's `toggleActive` does not refuse a second toggle while one is in flight. It only records the busy id.
- The list page sends a 0-based page to the admin list call. The public catalog query sends its `page` as given, 1-based with default 1.
- A JWT whose middle segment is not valid base64 or UTF-8 throws out of `decodeJwt`, because the decoding sits outside the `try`. The guard then neither allows nor redirects. This is the `GuardThrew` outcome.
- A role claim that is present but not a string (a number, `true`) makes `toUpperCase` throw rather than count as "not admin".
- The editor page stores an unusable id before it redirects, so the page is in edit mode when it leaves.

## Model

| member | source | states |
|---|---|---|
| Js.ErrorText | src/app/features/admin/components/admin-product-list-page/admin-product-list-page.component.ts:137 | the text a failed call shows is never null or undefined |
| Js.ErrorTextPrecedence | src/app/features/admin/components/admin-product-list-page/admin-product-list-page.component.ts:137 | a present `error.message` wins, else a present `error.error`, else the fallback; only null and undefined fall through, so an empty message is shown as is |
| Js.ErrorTextOfNonObject | src/app/features/admin/components/admin-product-list-page/admin-product-list-page.component.ts:175 | an error that is not an object always shows the fallback |
| Strings.Trim | src/app/core/services/catalog-api.service.ts:47 | the result is the part of the input between a leading and a trailing run of white space, and it neither starts nor ends with white space |
| Strings.TrimEmptyIff | src/app/core/services/catalog-api.service.ts:47-48 | the trimmed keyword is empty exactly when the keyword is all white space |
| Strings.TrimIdempotent | src/app/core/services/catalog-api.service.ts:47 | trimming twice is trimming once |
| Strings.Upper | src/app/core/auth/auth.service.ts:21 | upper-casing keeps the length and maps every code point independently |
| Strings.UpperIdempotent | src/app/core/auth/auth.service.ts:21-22 | upper-casing an upper-cased role changes nothing |
| Strings.ReplaceAll | src/app/core/auth/auth.service.ts:61 | every occurrence of the pattern character is replaced and nothing else changes |
| Strings.Utf16Length | src/app/features/admin/components/product-form/product-form.component.ts:53-54 | the length the length validators see lies between the code-point count and twice it, and equals the code-point count exactly when no character is outside the BMP |
| Strings.Utf16LengthOne | src/app/features/admin/components/product-form/product-form.component.ts:53-54 | one code point counts one code unit, or two above U+FFFF |
| Strings.Utf16LengthAppend | src/app/features/admin/components/product-form/product-form.component.ts:53-54 | the length of a concatenation is the sum of the lengths, so with Utf16LengthOne the length of every text is fixed |
| Strings.Split | src/app/core/auth/auth.service.ts:57 | splitting yields one more part than there are separators, and no part contains the separator |
| Strings.JoinSplit | src/app/core/auth/auth.service.ts:57 | joining the parts of a split with the separator gives back the text |
| Strings.SplitJoin | src/app/core/auth/auth.service.ts:57 | splitting the join of separator-free segments gives back the segments: split is a left inverse of join, the converse of JoinSplit |
| Strings.SplitFewerThanTwo | src/app/core/auth/auth.service.ts:57-58 | a token has fewer than two parts exactly when it has no dot |
| Strings.IntToString | src/app/core/services/catalog-api.service.ts:42-43 | the decimal text of an integer is non-empty, starts with a minus exactly for negatives, and has no `/` or `.` |
| Strings.ParseIntToString | src/app/core/services/catalog-api.service.ts:50 | reading back the decimal text of an integer gives the integer, zero and negatives included |
| CatalogApi.NamesDistinct | src/app/core/services/catalog-api.service.ts:42-50 | the six query parameters have pairwise distinct names on the wire |
| CatalogApi.ProductsQuery | src/app/core/services/catalog-api.service.ts:34-51 | page, size, sort and dir are always set, with defaults 1, 10, name and asc; `q` is set exactly when the trimmed keyword is non-empty, to the trimmed keyword; `cat` is set exactly when a category is given, 0 included |
| CatalogApi.ReadProductsQuery | src/app/core/services/catalog-api.service.ts:37-50 | reading the query back recovers the defaulted, trimmed parameters: nothing is lost or invented |
| CatalogApi.BlankKeywordOmitted | src/app/core/services/catalog-api.service.ts:47-48 | with a missing or blank keyword and no category, only the four fixed parameters are sent |
| Auth.Base64UrlToBase64 | src/app/core/auth/auth.service.ts:61 | the two sequential replacements act as one pointwise map `-`→`+`, `_`→`/`, and leave no `-` or `_` |
| Auth.IsAuthed | src/app/core/auth/auth.service.ts:14 | the session is authenticated exactly when a non-empty token is stored |
| Auth.DecodeJwt | src/app/core/auth/auth.service.ts:55-74 | a token without a dot decodes to `{}`; otherwise the second part, rewritten to base64, is decoded: decoding throws exactly when the segment does not decode, a decoded segment that is not JSON gives `{}`, and parsed JSON is returned as it is |
| Auth.Payload | src/app/core/auth/auth.service.ts:16-19 | without a token there is no payload; with one the payload is the decoded token |
| Auth.Role | src/app/core/auth/auth.service.ts:21 | without a token the role is `''`; otherwise a string role claim is upper-cased, a missing or null claim gives `''`, any other claim throws, and a token that throws while decoding throws here too |
| Auth.TokenParts | src/app/core/auth/auth.service.ts:57-60 | a token `header.segment.rest` with dot-free header and segment has the segment as its second part |
| Auth.DecodeTokenClaims | src/app/core/auth/auth.service.ts:55-74 | the claims of a three-part token are its middle segment decoded and parsed; a segment that decodes but is not JSON gives `{}` |
| Auth.RoleOfToken | src/app/core/auth/auth.service.ts:16-21 | the role of a stored token whose claims parse is the upper-cased string role claim, `''` without one, and a throw for a non-string one |
| Auth.IsAdmin | src/app/core/auth/auth.service.ts:22 | without a token the session is not admin; otherwise it is admin exactly when the role is `ADMIN`, and it throws exactly when reading the role throws |
| Auth.AdminIffRoleClaim | src/app/core/auth/auth.service.ts:21-22 | the session is admin exactly when the decoded role claim is a string that upper-cases to `ADMIN` |
| Auth.AdminRoleClaims | src/app/core/auth/auth.service.ts:21-22 | the role claims that count as admin are exactly the five-letter case variants of `admin`, with the dotless i standing in for i |
| Auth.IsTokenExpired | src/app/core/auth/auth.service.ts:48-53 | without a token nothing is expired |
| Auth.NoExpiryClaimNeverExpires | src/app/core/auth/auth.service.ts:50 | a missing, null or zero `exp` claim never expires |
| Auth.ExpiryOfNumericClaim | src/app/core/auth/auth.service.ts:51-52 | a numeric `exp` is expired exactly when it is at most the current time in whole seconds |
| Auth.ExpiredWithinItsSecond | src/app/core/auth/auth.service.ts:51-52 | a token already counts as expired during the second its `exp` names, and not one millisecond before it |
| Auth.MalformedTokenIsAnonymousClaims | src/app/core/auth/auth.service.ts:57-58 | a token without dots is authenticated but has role `''`, is not admin and never expires |
| Auth.Login | src/app/core/auth/auth.service.ts:26-37 | the token is stored exactly when the reply carries a non-empty token; otherwise the session is unchanged and an error surfaces, and an HTTP failure's error passes through as is |
| Auth.Logout | src/app/core/auth/auth.service.ts:39-42 | after logout the session is not authenticated |
| Auth.LogoutClearsClaims | src/app/core/auth/auth.service.ts:39-42 | after logout there is no payload, the role is `''`, and the session is neither admin nor expired |
| AdminGuard.Decide | src/app/core/guards/admin.guard.ts:9-12 | an unauthenticated navigation is refused and sent to `/login` with the requested URL as `returnUrl` |
| AdminGuard.DecisionTable | src/app/core/guards/admin.guard.ts:5-18 | each outcome in both directions: login redirect iff unauthenticated or expired; allowed iff authenticated, unexpired and admin; `/403` iff authenticated, unexpired and not admin; a throw iff the expiry read throws, or the token is unexpired and the role read throws |
| AdminGuard.ExactlyOneOutcome | src/app/core/guards/admin.guard.ts:9-17 | when the claims decode and the role reads, exactly one of the three outcomes happens, and the guard returns true exactly when it navigates nowhere |
| AdminGuard.ExpiredAdminGoesToLogin | src/app/core/guards/admin.guard.ts:9-14 | expiry is checked before the role: an expired admin token goes to the login page |
| AdminGuard.AfterLogoutToLogin | src/app/core/guards/admin.guard.ts:9-12 | after logout every guarded navigation is sent to the login page |
| AdminGuard.AdminTokenAllowed | src/app/core/guards/admin.guard.ts:9-17 | a well-formed token with role claim `admin` and an `exp` after the current second is let through |
| AdminGuard.UnparsableClaimsForbidden | src/app/core/guards/admin.guard.ts:9-17 | a token whose middle segment is not JSON has no role and is sent to `/403` |
| AdminGuard.UndecodableTokenThrows | src/app/core/guards/admin.guard.ts:9-17 | a token whose middle segment does not decode makes the guard throw |
| AdminGuard.NonStringRoleThrows | src/app/core/guards/admin.guard.ts:9-17 | a token whose role claim is present but not a string makes the guard throw instead of sending the user to `/403` |
| ListPage.Request | src/app/features/admin/components/admin-product-list-page/admin-product-list-page.component.ts:112-119 | the request asks for the current page minus one, carries the trimmed keyword only when non-empty, and always carries the direction |
| ListPage.Reload | src/app/features/admin/components/admin-product-list-page/admin-product-list-page.component.ts:108-123 | a reload clears the error, starts loading and sends exactly one list request for the current view and status filter |
| ListPage.Init | src/app/features/admin/components/admin-product-list-page/admin-product-list-page.component.ts:44-48 | the search box takes the applied keyword, and the current page is reloaded; nothing else in the view changes |
| ListPage.TypeKeyword | src/app/features/admin/components/admin-product-list-page/admin-product-list-page.component.ts:41-42 | typing changes only the search box and starts nothing |
| ListPage.OnKeyword | src/app/features/admin/components/admin-product-list-page/admin-product-list-page.component.ts:50-52 | setting the keyword changes only the keyword and does not reload |
| ListPage.ApplyKeyword | src/app/features/admin/components/admin-product-list-page/admin-product-list-page.component.ts:55-59 | Search applies the typed keyword and reloads from page 1; the category, status, sort, items and busy id are kept |
| ListPage.ClearKeyword | src/app/features/admin/components/admin-product-list-page/admin-product-list-page.component.ts:62-67 | Clear empties both keywords and reloads page 1 without a keyword; the category, status and sort are kept |
| ListPage.ChangeStatus | src/app/features/admin/components/admin-product-list-page/admin-product-list-page.component.ts:77-81 | a new status filter reloads from page 1 with that filter; the keyword, category, sort and items are kept |
| ListPage.ChangeCategory | src/app/features/admin/components/admin-product-list-page/admin-product-list-page.component.ts:83-87 | a new category reloads from page 1 with that category; the keyword, status and sort are kept |
| ListPage.ChangeSort | src/app/features/admin/components/admin-product-list-page/admin-product-list-page.component.ts:89-98 | the current sort field flips its direction, a new field starts ascending, and either way the list reloads from page 1; the keyword, category and status are kept |
| ListPage.Prev | src/app/features/admin/components/admin-product-list-page/admin-product-list-page.component.ts:142-146 | there is nothing before page 1; otherwise the previous page is loaded with the filters and items kept |
| ListPage.Next | src/app/features/admin/components/admin-product-list-page/admin-product-list-page.component.ts:148-153 | there is nothing past the last known page; otherwise the next page is loaded with the filters and items kept, and an in-range page stays in range |
| ListPage.ParseCat | src/app/features/admin/components/admin-product-list-page/admin-product-list-page.component.ts:101-106 | blank text is no category; otherwise the category is the value `Number` gives for the trimmed text exactly when that value is finite |
| ListPage.ParseCatOfTrimmed | src/app/features/admin/components/admin-product-list-page/admin-product-list-page.component.ts:101-106 | surrounding white space does not change the category read |
| ListPage.GoCreate | src/app/features/admin/components/admin-product-list-page/admin-product-list-page.component.ts:69-71 | Create navigates to `/admin/products/new` and leaves the list as it is |
| ListPage.GoEdit | src/app/features/admin/components/admin-product-list-page/admin-product-list-page.component.ts:73-75 | Edit navigates to the product's edit route and leaves the list as it is |
| ListPage.EditPathRoundTrip | src/app/features/admin/components/admin-product-list-page/admin-product-list-page.component.ts:74 | the edit route has the segments `''`, `admin`, `products`, id, `edit`, and its id segment reads back as the product's id |
| ListPage.EditPathSegments | src/app/features/admin/components/admin-product-list-page/admin-product-list-page.component.ts:74 | the edit route splits on `/` into `''`, `admin`, `products`, the id text and `edit` |
| ListPage.EditPathJoin | src/app/features/admin/components/admin-product-list-page/admin-product-list-page.component.ts:74 | the route the edit navigation builds is the five segments joined with `/` |
| ListPage.OnLoaded | src/app/features/admin/components/admin-product-list-page/admin-product-list-page.component.ts:124-133 | items and totals are replaced and the filters kept; a page past the last page is pulled back to the last page with exactly one more request for the same filters; otherwise loading stops and nothing more is started |
| ListPage.ClampSettles | src/app/features/admin/components/admin-product-list-page/admin-product-list-page.component.ts:130-133 | answering the corrective request with the same totals starts no further request |
| ListPage.OnLoadFailed | src/app/features/admin/components/admin-product-list-page/admin-product-list-page.component.ts:135-138 | a failed load stops loading, keeps the items and shows a non-null error |
| ListPage.SetActiveFlag | src/app/features/admin/components/admin-product-list-page/admin-product-list-page.component.ts:169-171 | rows with the id take the new flag, every other row is unchanged, and the length is kept |
| ListPage.ToggleActive | src/app/features/admin/components/admin-product-list-page/admin-product-list-page.component.ts:155-165 | a toggle marks the row busy, clears the error, and asks to disable an active product or enable an inactive one |
| ListPage.OnToggled | src/app/features/admin/components/admin-product-list-page/admin-product-list-page.component.ts:166-172 | after a successful toggle exactly the rows with that id flip to the opposite of the starting flag, and nothing but the items and the busy id changes |
| ListPage.OnToggleFailed | src/app/features/admin/components/admin-product-list-page/admin-product-list-page.component.ts:173-176 | a failed toggle clears the busy id, keeps the items and shows the error |
| ListPage.ToggleRoundTrip | src/app/features/admin/components/admin-product-list-page/admin-product-list-page.component.ts:169-171 | disabling and then enabling a product whose rows were active restores the list |
| ListPage.ApplyKeepsPageInRange | src/app/features/admin/components/admin-product-list-page/admin-product-list-page.component.ts:108-153 | every event keeps the page at least 1 and within a known page count, and the requests it starts ask for a non-negative page |
| ListPage.RunKeepsPageInRange | src/app/features/admin/components/admin-product-list-page/admin-product-list-page.component.ts:108-153 | from an in-range page, any sequence of events keeps the page in range, so no list request ever asks for a negative page |
| ListPage.InitialInRange | src/app/features/admin/components/admin-product-list-page/admin-product-list-page.component.ts:33-36 | the page starts in range |
| ProductForm.ValidIff | src/app/features/admin/components/product-form/product-form.component.ts:52-59 | the form is valid exactly when the name is non-empty and at most 100 long, the description at most 500, and stock ≥ 1, price ≥ 0.01 and category ≥ 1 are all present |
| ProductForm.DefaultsNeedAName | src/app/features/admin/components/product-form/product-form.component.ts:144-151 | the values a create resets to are invalid only because the name is empty |
| ProductForm.Errors | src/app/features/admin/components/product-form/product-form.component.ts:52-59 | each control reports its failing validators: name required and at most 100, description at most 500, stock, price and category required with minimums 1, 0.01 and 1 |
| ProductForm.Valid | src/app/features/admin/components/product-form/product-form.component.ts:52-59 | the form is valid when no control reports an error |
| ProductForm.BuildRequest | src/app/features/admin/components/product-form/product-form.component.ts:121-129 | the request carries the form's name, numbers, active flag and description, and the current image URL |
| ProductForm.Submit | src/app/features/admin/components/product-form/product-form.component.ts:109-136 | an invalid form sends nothing and shows `Form invalid`; a valid one sends exactly one save, an update for a truthy product id and a create otherwise; nothing else in the view changes |
| ProductForm.SubmittedRequestInBounds | src/app/features/admin/components/product-form/product-form.component.ts:113-129 | a request that passed validation respects the name length and the numeric minimums |
| ProductForm.OnSaved | src/app/features/admin/components/product-form/product-form.component.ts:137-155 | after a create the form, touched flag, image URL and preview are reset and the product id, product, error, upload flag and categories kept; after an update only the saving flag and message change |
| ProductForm.PickErrFallback | src/app/features/admin/components/product-form/product-form.component.ts:185-188 | `pickErr(e) ?? fallback` is the same message rule as the list page's |
| ProductForm.PickErr | src/app/features/admin/components/product-form/product-form.component.ts:185-188 | the error's `error.message`, else its `error.error`, else null |
| ProductForm.OnSaveFailed | src/app/features/admin/components/product-form/product-form.component.ts:156-159 | a failed save stops saving and shows the error by the shared message rule |
| ProductForm.OnPickImage | src/app/features/admin/components/product-form/product-form.component.ts:81-94 | picking nothing only clears messages; picking a file previews it locally and starts exactly one upload |
| ProductForm.OnUploadFailed | src/app/features/admin/components/product-form/product-form.component.ts:101-105 | a failed upload forgets the image URL, keeps the preview and shows the error |
| ProductForm.OnUploaded | src/app/features/admin/components/product-form/product-form.component.ts:95-100 | a finished upload stores the returned path as the image URL, previews it as served, stops uploading and shows `Upload image ok` |
| ProductForm.SaveAfterFailedUploadHasNoImage | src/app/features/admin/components/product-form/product-form.component.ts:101-105 | a save after a failed upload sends no image URL |
| ProductForm.SaveAfterUploadSendsUrl | src/app/features/admin/components/product-form/product-form.component.ts:95-100 | a save after a successful upload sends the uploaded URL |
| ProductForm.Disable | src/app/features/admin/components/product-form/product-form.component.ts:163-170 | without a truthy product id nothing happens; otherwise exactly one disable call starts |
| ProductForm.OnDisabled | src/app/features/admin/components/product-form/product-form.component.ts:171-175 | a finished disable stops saving, shows `Disabled product ok` and turns the form's active switch off |
| ProductForm.DisableThenSaveKeepsInactive | src/app/features/admin/components/product-form/product-form.component.ts:170-175 | a save after a successful disable sends an update with the product inactive and otherwise the same request |
| ProductForm.OnDisableFailed | src/app/features/admin/components/product-form/product-form.component.ts:176-179 | a failed disable stops saving and shows the error by the shared message rule |
| ProductForm.Patched | src/app/features/admin/components/product-form/product-form.component.ts:66-73 | every control takes the product's value, with an empty description for a missing one |
| ProductForm.OnInputs | src/app/features/admin/components/product-form/product-form.component.ts:61-79 | a changed, non-null product is patched into the form and its image URL becomes both the stored URL and the preview, nothing else changing; otherwise only the inputs change |
| ProductForm.PatchThenSaveEchoesProduct | src/app/features/admin/components/product-form/product-form.component.ts:61-79 | loading a product and saving it unchanged sends an update of that id with the product's own fields |
| ProductForm.OnCategories | src/app/features/admin/components/product-form/product-form.component.ts:41-49 | the categories answer replaces the category list |
| EditorPage.RouteId | src/app/features/admin/components/admin-product-editor/admin-product-editor-page.component.ts:30-31 | a missing or empty `id` parameter is no id; any other text is what `Number` reads |
| EditorPage.IsEditMode | src/app/features/admin/components/admin-product-editor/admin-product-editor-page.component.ts:23-25 | the page is in edit mode exactly when a product id is stored |
| EditorPage.Init | src/app/features/admin/components/admin-product-editor/admin-product-editor-page.component.ts:27-60 | no id: create mode with nothing started; an unusable id: redirect to the list; a finite positive id: loading and exactly one fetch of that id |
| EditorPage.InitOutcomes | src/app/features/admin/components/admin-product-editor/admin-product-editor-page.component.ts:35-59 | initialisation starts nothing, a redirect, or one fetch, and starts nothing exactly in create mode |
| EditorPage.BadIdRedirects | src/app/features/admin/components/admin-product-editor/admin-product-editor-page.component.ts:35-43 | an id reading as zero, negative or NaN redirects to the list and leaves the page in edit mode |
| EditorPage.OnFetched | src/app/features/admin/components/admin-product-editor/admin-product-editor-page.component.ts:46-49 | the fetched product lands in the page and loading stops |
| EditorPage.OnFetchFailed | src/app/features/admin/components/admin-product-editor/admin-product-editor-page.component.ts:50-54 | a failed fetch stops loading and navigates to the list |
| EditorPage.FetchSettles | src/app/features/admin/components/admin-product-editor/admin-product-editor-page.component.ts:44-55 | the fetch ends loading either way: the product lands in the page in edit mode, or the user is sent back to the list |
| LoginPage.FormValidIff | src/app/features/auth/login.component/login.component.ts:22-25 | the login form is valid exactly when the email is non-empty and accepted by the pattern and the password is at least 6 long |
| LoginPage.FormValid | src/app/features/auth/login.component/login.component.ts:22-25 | the email is required and must match the pattern; the password is required and at least 6 long |
| LoginPage.Submit | src/app/features/auth/login.component/login.component.ts:29-40 | the error is cleared; an invalid form only marks the fields touched; a valid one starts loading and one login call that will return to `returnUrl`, or `/` without one |
| LoginPage.ExtractErr | src/app/features/auth/login.component/login.component.ts:54-67 | a string error is itself, else a string `error` field, else a string `error.message`, else nothing |
| LoginPage.OnLoginReply | src/app/features/auth/login.component/login.component.ts:42-51 | success stores the token and navigates to the return URL; any failure leaves the session alone, navigates nowhere and shows a message |
| LoginPage.MissingTokenShowsGenericMessage | src/app/features/auth/login.component/login.component.ts:47-50 | a reply without a token shows `Login failed`, because the thrown error has no `error` field |
| LoginPage.EmptyStringErrorShownAsIs | src/app/features/auth/login.component/login.component.ts:55 | an empty-string error is shown empty, not replaced by `Login failed` |
| Upload.Percent | src/app/features/admin/services/admin-product.service.ts:51 | the percentage is the ratio times 100 rounded to the nearest integer, halves up |
| Upload.PercentUnique | src/app/features/admin/services/admin-product.service.ts:51 | no other integer satisfies the rounding bounds |
| Upload.PercentBounds | src/app/features/admin/services/admin-product.service.ts:50-51 | within the transfer the percentage is in 0..100, 0 at the start and 100 at the end |
| Upload.PercentMonotone | src/app/features/admin/services/admin-product.service.ts:51 | the percentage never goes down as more bytes are sent |
| Upload.ToUpdate | src/app/features/admin/services/admin-product.service.ts:44-58 | only upload-progress and response events produce an update; progress with an unknown or zero total is 0; a response is 100 with the body's URL |
| Upload.Updates | src/app/features/admin/services/admin-product.service.ts:43-59 | one update per kept event; with loaded never above total every progress is in 0..100; an update carrying a URL is at 100 |
| Upload.UpdatesAppend | src/app/features/admin/services/admin-product.service.ts:43-59 | the update stream of a concatenation of event streams is the concatenation of their update streams |
| Upload.UpdatesOne | src/app/features/admin/services/admin-product.service.ts:45-59 | a single event yields exactly the update it maps to if the filter keeps it, and nothing otherwise |
| Upload.FinalUpdateCarriesUrl | src/app/features/admin/services/admin-product.service.ts:55-58 | a stream ending with the response ends with the update (100, URL) |

## Left out

- HTTP transport: the `create`, `update`, `disable` and `uploadImage` calls and `getCategories` are effects or answer events; the `ApiResponse` envelope is unwrapped before the model sees it.
- `productService.list`, `productService.enable` and `catalogService.getProductById` are called by the pages but not defined in the service files. They appear only as effects (`Load`, `SetActive`, `Fetch`).
- `localStorage` and the `accessToken` key: the session is the token value alone.
- `Date.now()` is the `nowMs` parameter.
- `URL.createObjectURL` is the `LocalFile` preview. The `http://localhost:8080` prefix of the served preview is the `Served` preview.
- `atob` with `decodeURIComponent`, `JSON.parse`, `Number` and the `Validators.email` pattern are parameters; their own behaviour is not modelled.
- JSON arrays are not among the decoded claim values; a claim set that is an array is not modelled.
- Strings.Upper: covers ASCII letters, the dotless i and the long s. Other code points are left unchanged, including the ones whose upper case has a different length, such as ß. No other code point upper-cases to a letter of `ADMIN`, so the admin check is exact.
- Strings.IntToString: writes every integer in plain decimal. `String(n)` switches to exponent form from 1e21. Non-integer page, size or category values are not modelled.
- Auth.ExpiryOfNumericClaim: states expiry for integer claims only. A fractional or string claim goes through `ExpAtMost` with the same comparison but has no lemma of its own.
- The Angular framework is not modelled: signals, change detection, template bindings, the order in which concurrent answers arrive, and router guards other than the admin guard.
- Page navigation state beyond `content`, `totalElements`, `totalPages`, `size` and `number` is not modelled.
- The login reply's token is typed as a string. A non-string `token` in the reply is not modelled.
- The form's description control is never null, so `description ?? null` always sends the text.
- The routes file, the home page and the framework test files are not part of this model.

=== FILE: admin_guard.dfy ===
/** The admin route guard (admin.guard.ts): a pure decision on the session at the
    instant of navigation. Authentication and expiry are checked before the role,
    so an expired admin token is sent to the login page. */
module AdminGuard {
  import opened Js
  import opened Models
  import opened Auth

  /** What the guard returns, and the navigation it starts; or an exception from
      decoding the token, which propagates to the router. */
  datatype GuardOutcome = Returns(allowed: bool, nav: Option<Nav>) | GuardThrew

  const LoginPath: string := "/login"
  const ForbiddenPath: string := "/403"

  /** `adminGuard` for a navigation to `url` at time `nowMs`. */
  function Decide(s: Session, env: Env, nowMs: int, url: string): (o: GuardOutcome)
    ensures !IsAuthed(s) ==> o == Returns(false, Some(Nav(LoginPath, Some(url))))
  {
    if !IsAuthed(s) then Returns(false, Some(Nav(LoginPath, Some(url))))
    else
      match IsTokenExpired(s, env, nowMs)
      case Threw => GuardThrew
      case Value(expired) =>
        if expired then Returns(false, Some(Nav(LoginPath, Some(url))))
        else
          match IsAdmin(s, env)
          case Threw => GuardThrew
          case Value(admin) =>
            if admin then Returns(true, None) else Returns(false, Some(Nav(ForbiddenPath, None)))
  }

  predicate SentToLogin(o: GuardOutcome, url: string) {
    o == Returns(false, Some(Nav(LoginPath, Some(url))))
  }

  predicate Allowed(o: GuardOutcome) {
    o == Returns(true, None)
  }

  predicate SentToForbidden(o: GuardOutcome) {
    o == Returns(false, Some(Nav(ForbiddenPath, None)))
  }

  /** The guard's decision table, each row in both directions. */
  lemma DecisionTable(s: Session, env: Env, nowMs: int, url: string)
    ensures var o := Decide(s, env, nowMs, url);
            && (SentToLogin(o, url) <==> !IsAuthed(s) || IsTokenExpired(s, env, nowMs) == Value(true))
            && (Allowed(o) <==> IsAuthed(s) && IsTokenExpired(s, env, nowMs) == Value(false)
                                && IsAdmin(s, env) == Value(true))
            && (SentToForbidden(o) <==> IsAuthed(s) && IsTokenExpired(s, env, nowMs) == Value(false)
                                        && IsAdmin(s, env) == Value(false))
            && (o == GuardThrew <==> IsAuthed(s) && (IsTokenExpired(s, env, nowMs).Threw?
                                     || (IsTokenExpired(s, env, nowMs) == Value(false) && IsAdmin(s, env).Threw?)))
  {
  }

  /** When the token decodes and its role claim, if any, is a string, exactly one of
      the three outcomes occurs, and the guard returns true exactly when it navigates
      nowhere. */
  lemma ExactlyOneOutcome(s: Session, env: Env, nowMs: int, url: string)
    requires Role(s, env).Value?
    ensures var o := Decide(s, env, nowMs, url);
            && o.Returns?
            && (o.allowed <==> o.nav.None?)
            && (SentToLogin(o, url) || Allowed(o) || SentToForbidden(o))
            && !(SentToLogin(o, url) && Allowed(o))
            && !(SentToLogin(o, url) && SentToForbidden(o))
            && !(Allowed(o) && SentToForbidden(o))
  {
    assert IsAuthed(s) ==> IsTokenExpired(s, env, nowMs).Value?;
  }

  /** Expiry is checked before the role: an expired token with an admin role is
      sent to the login page, neither allowed nor forbidden. */
  lemma ExpiredAdminGoesToLogin(s: Session, env: Env, nowMs: int, url: string)
    requires IsAuthed(s) && IsTokenExpired(s, env, nowMs) == Value(true)
    requires IsAdmin(s, env) == Value(true)
    ensures SentToLogin(Decide(s, env, nowMs, url), url)
  {
  }

  /** Logging out makes every protected navigation a login redirect. */
  lemma AfterLogoutToLogin(s: Session, env: Env, nowMs: int, url: string)
    ensures SentToLogin(Decide(Logout(s), env, nowMs, url), url)
  {
  }

  /** A well-formed token whose claims parse, with role claim `admin` and an `exp`
      later than the current second, is let through. */
  lemma AdminTokenAllowed(s: Session, env: Env, nowMs: int, url: string,
                          header: string, segment: string, rest: string, claims: JsValue, e: int)
    requires s.token == Some(header + "." + segment + "." + rest)
    requires '.' !in header && '.' !in segment
    requires env.decodeSegment(Base64UrlToBase64(segment)).Some?
    requires env.parseJson(env.decodeSegment(Base64UrlToBase64(segment)).value) == Some(claims)
    requires Get(claims, "role") == Str("admin")
    requires Get(claims, "exp") == Number(Finite(e as real)) && e > nowMs / 1000
    ensures Allowed(Decide(s, env, nowMs, url))
  {
    DecodeTokenClaims(header, segment, rest, env);
    AdminRoleClaims("admin");
  }

  /** A token whose middle segment decodes but is not JSON has the claims `{}`: it is
      authenticated and never expires, but has no role, so it is sent to `/403`. */
  lemma UnparsableClaimsForbidden(s: Session, env: Env, nowMs: int, url: string,
                                  header: string, segment: string, rest: string)
    requires s.token == Some(header + "." + segment + "." + rest)
    requires '.' !in header && '.' !in segment
    requires env.decodeSegment(Base64UrlToBase64(segment)).Some?
    requires env.parseJson(env.decodeSegment(Base64UrlToBase64(segment)).value).None?
    ensures SentToForbidden(Decide(s, env, nowMs, url))
  {
    DecodeTokenClaims(header, segment, rest, env);
  }

  /** A token whose middle segment does not decode makes the guard throw. */
  lemma UndecodableTokenThrows(s: Session, env: Env, nowMs: int, url: string,
                               header: string, segment: string, rest: string)
    requires s.token == Some(header + "." + segment + "." + rest)
    requires '.' !in header && '.' !in segment
    requires env.decodeSegment(Base64UrlToBase64(segment)).None?
    ensures Decide(s, env, nowMs, url) == GuardThrew
  {
    DecodeTokenClaims(header, segment, rest, env);
  }

  /** A role claim that is present but not a string makes the role read throw, so the
      guard throws instead of sending the user to `/403`. */
  lemma NonStringRoleThrows(s: Session, env: Env, nowMs: int, url: string,
                            header: string, segment: string, rest: string, claims: JsValue)
    requires s.token == Some(header + "." + segment + "." + rest)
    requires '.' !in header && '.' !in segment
    requires env.decodeSegment(Base64UrlToBase64(segment)).Some?
    requires env.parseJson(env.decodeSegment(Base64UrlToBase64(segment)).value) == Some(claims)
    requires Get(claims, "exp").Nullish()
    requires !Get(claims, "role").Str? && !Get(claims, "role").Nullish()
    ensures Decide(s, env, nowMs, url) == GuardThrew
  {
    DecodeTokenClaims(header, segment, rest, env);
  }
}

=== FILE: auth.dfy ===
/** The session store (auth.service.ts): the token is the only state, and every
    claim is recomputed from it on read. Decoding the token's middle segment
    (base64 and percent-decoding) can throw; parsing it as JSON cannot, because
    a parse failure yields an empty claim set. */
module Auth {
  import opened Js
  import opened Strings
  import opened Models

  /** The browser and language functions the store calls, as parameters:
      `decodeSegment` is `atob` followed by `decodeURIComponent` (None: it threw),
      `parseJson` is `JSON.parse` (None: a syntax error), `toNumber` is `Number(s)`. */
  datatype Env = Env(
    decodeSegment: string -> Option<string>,
    parseJson: string -> Option<JsValue>,
    toNumber: string -> Num)

  /** The outcome of reading a derived value: a value, or an exception escaping to the caller. */
  datatype Eval<T> = Value(v: T) | Threw

  /** The store's only state: the token (null after logout or before any login). */
  datatype Session = Session(token: Option<string>)

  /** `isAuthed`: a token is present and non-empty. */
  predicate IsAuthed(s: Session) {
    s.token.Some? && s.token.value != ""
  }

  /** The base64url to base64 alphabet rewrite of section 5 of RFC 4648, done as the
      source does it: every `-` is replaced, then every `_`. */
  function Base64UrlToBase64(seg: string): (r: string)
    ensures |r| == |seg|
    ensures forall k :: 0 <= k < |seg| ==>
              r[k] == (if seg[k] == '-' then '+' else if seg[k] == '_' then '/' else seg[k])
    ensures '-' !in r && '_' !in r
  {
    ReplaceAll(ReplaceAll(seg, '-', '+'), '_', '/')
  }

  /** The empty claim set `{}`. */
  const NoClaims: JsValue := Obj(map[])

  /** `decodeJwt`: fewer than two `.`-separated parts or unparsable JSON give `{}`;
      a middle segment that is not valid base64 or UTF-8 throws. */
  function DecodeJwt(token: string, env: Env): (r: Eval<JsValue>)
    ensures '.' !in token ==> r == Value(NoClaims)
    ensures r.Threw? ==> '.' in token
    ensures |Split(token, '.')| >= 2 ==>
              var d := env.decodeSegment(Base64UrlToBase64(Split(token, '.')[1]));
              && (r.Threw? <==> d.None?)
              && (d.Some? ==> r == Value(env.parseJson(d.value).GetOr(NoClaims)))
  {
    var parts := Split(token, '.');
    SplitFewerThanTwo(token, '.');
    if |parts| < 2 then Value(NoClaims)
    else
      match env.decodeSegment(Base64UrlToBase64(parts[1]))
      case None => Threw
      case Some(json) =>
        match env.parseJson(json)
        case None => Value(NoClaims)
        case Some(v) => Value(v)
  }

  /** `payload`: null without a token, otherwise the decoded claims. */
  function Payload(s: Session, env: Env): (r: Eval<JsValue>)
    ensures !IsAuthed(s) ==> r == Value(Null)
    ensures IsAuthed(s) ==> r == DecodeJwt(s.token.value, env)
  {
    if IsAuthed(s) then DecodeJwt(s.token.value, env) else Value(Null)
  }

  /** `role`: the upper-cased role claim, `''` without one. Upper-casing a role
      claim that is not a string throws (`toUpperCase` is not a function). */
  function Role(s: Session, env: Env): (r: Eval<string>)
    ensures !IsAuthed(s) ==> r == Value("")
    ensures Payload(s, env).Threw? ==> r == Threw
    ensures Payload(s, env).Value? ==>
              var claim := Get(Payload(s, env).v, "role");
              && (claim.Str? ==> r == Value(Upper(claim.s)))
              && (claim.Nullish() ==> r == Value(""))
              && (!claim.Str? && !claim.Nullish() ==> r == Threw)
  {
    match Payload(s, env)
    case Threw => Threw
    case Value(p) =>
      match Get(p, "role")
      case Undefined => Value("")
      case Null => Value("")
      case Str(claim) => Value(Upper(claim))
      case _ => Threw
  }

  /** `isAdmin`: the role is exactly `ADMIN`. */
  function IsAdmin(s: Session, env: Env): (r: Eval<bool>)
    ensures !IsAuthed(s) ==> r == Value(false)
    ensures r.Threw? <==> Role(s, env).Threw?
    ensures r.Value? ==> r.v == (Role(s, env).v == "ADMIN")
  {
    match Role(s, env)
    case Threw => Threw
    case Value(role) => Value(role == "ADMIN")
  }

  /** `exp <= nowSec` with JavaScript's comparison rules for the claim's runtime type. */
  predicate ExpAtMost(exp: JsValue, nowSec: int, toNumber: string -> Num) {
    match exp
    case Number(n) => n.AtMost(nowSec as real)
    case Str(t) => toNumber(t).AtMost(nowSec as real)
    case Bool(b) => (if b then 1 else 0) <= nowSec
    case Null => 0 <= nowSec
    case Undefined => false
    case Obj(_) => false
  }

  /** `isTokenExpired` at wall-clock time `nowMs` (milliseconds since the epoch). */
  function IsTokenExpired(s: Session, env: Env, nowMs: int): (r: Eval<bool>)
    ensures !IsAuthed(s) ==> r == Value(false)
  {
    match Payload(s, env)
    case Threw => Threw
    case Value(p) =>
      var exp := Get(p, "exp");
      if !exp.Truthy() then Value(false)
      else Value(ExpAtMost(exp, nowMs / 1000, env.toNumber))
  }

  // ---------------------------------------------------------------- login / logout

  /** The login call's reply as the store sees it: the envelope's data, or an HTTP failure. */
  datatype LoginReply = Replied(data: Option<AuthResponse>) | HttpFailed(error: JsValue)

  datatype LoginOutcome = Stored(session: Session) | LoginError(session: Session, error: JsValue)

  /** The message of the error thrown when the reply carries no token. */
  const MissingTokenMessage: string := "Login OK nhưng BE không trả token"

  /** `login`: a reply carrying a non-empty token replaces the stored token; anything
      else leaves the session as it was and surfaces an error. */
  function Login(s: Session, reply: LoginReply): (o: LoginOutcome)
    ensures o.Stored? <==> reply.Replied? && reply.data.Some? && reply.data.value.token.Some?
                           && reply.data.value.token.value != ""
    ensures o.Stored? ==> o.session.token == reply.data.value.token && IsAuthed(o.session)
    ensures o.LoginError? ==> o.session == s
    ensures reply.HttpFailed? ==> o == LoginError(s, reply.error)
  {
    match reply
    case HttpFailed(e) => LoginError(s, e)
    case Replied(data) =>
      if data.Some? && data.value.token.Some? && data.value.token.value != ""
      then Stored(Session(data.value.token))
      else LoginError(s, Obj(map["message" := Str(MissingTokenMessage)]))
  }

  /** `logout`: drops the token. */
  function Logout(s: Session): (r: Session)
    ensures !IsAuthed(r)
  {
    Session(None)
  }

  // ---------------------------------------------------------------- properties

  /** After logout nothing is derived from the old token: no payload, no role, not admin,
      not expired. */
  lemma LogoutClearsClaims(s: Session, env: Env, nowMs: int)
    ensures var r := Logout(s);
            && Payload(r, env) == Value(Null) && Role(r, env) == Value("")
            && IsAdmin(r, env) == Value(false) && IsTokenExpired(r, env, nowMs) == Value(false)
  {
  }

  /** A claim set whose role claim upper-cases to `ADMIN` is admin; `admin` and `Admin` qualify. */
  lemma AdminIffRoleClaim(s: Session, env: Env)
    ensures IsAdmin(s, env) == Value(true) <==>
            (exists p :: Payload(s, env) == Value(p) && Get(p, "role").Str?
                         && Upper(Get(p, "role").s) == "ADMIN")
  {
    if IsAdmin(s, env) == Value(true) {
      var p := Payload(s, env).v;
      assert Payload(s, env) == Value(p);
    }
  }

  /** The code points that upper-case to an ASCII capital other than I and S: itself
      and its lower-case letter. */
  lemma UpperCharTo(c: char, capital: char)
    requires 'A' <= capital <= 'Z' && capital != 'I' && capital != 'S'
    ensures UpperChar(c) == capital <==> c == capital || c as int == capital as int + 32
  {
  }

  /** Which role claims are admin: five letters, each an upper- or lower-case letter of
      ADMIN, where the dotless i also counts as I. */
  lemma AdminRoleClaims(claim: string)
    ensures Upper(claim) == "ADMIN" <==>
            |claim| == 5
            && (claim[0] == 'a' || claim[0] == 'A')
            && (claim[1] == 'd' || claim[1] == 'D')
            && (claim[2] == 'm' || claim[2] == 'M')
            && (claim[3] == 'i' || claim[3] == 'I' || claim[3] == '\U{0131}')
            && (claim[4] == 'n' || claim[4] == 'N')
  {
    var u := Upper(claim);
    if |claim| == 5 {
      IsAdminText(u);
      UpperCharTo(claim[0], 'A');
      UpperCharTo(claim[1], 'D');
      UpperCharTo(claim[2], 'M');
      UpperCharTo(claim[4], 'N');
    }
  }

  lemma IsAdminText(u: string)
    requires |u| == 5
    ensures u == "ADMIN" <==> u[0] == 'A' && u[1] == 'D' && u[2] == 'M' && u[3] == 'I' && u[4] == 'N'
  {
    if u[0] == 'A' && u[1] == 'D' && u[2] == 'M' && u[3] == 'I' && u[4] == 'N' {
      assert u == ['A', 'D', 'M', 'I', 'N'];
    }
  }

  /** A token without an `exp` claim, or with `exp` 0, never counts as expired. */
  lemma NoExpiryClaimNeverExpires(s: Session, env: Env, nowMs: int, p: JsValue)
    requires Payload(s, env) == Value(p)
    requires Get(p, "exp").Nullish() || Get(p, "exp") == Number(Finite(0.0))
    ensures IsTokenExpired(s, env, nowMs) == Value(false)
  {
  }

  /** Expiry follows section 4.1.4 of RFC 7519 for a numeric claim: the token is expired
      exactly when `exp <= floor(nowMs / 1000)`. */
  lemma ExpiryOfNumericClaim(s: Session, env: Env, nowMs: int, p: JsValue, e: int)
    requires Payload(s, env) == Value(p)
    requires Get(p, "exp") == Number(Finite(e as real)) && e != 0
    ensures IsTokenExpired(s, env, nowMs) == Value(e <= nowMs / 1000)
  {
  }

  /** The expiry check truncates to whole seconds: during the second in which the
      claim falls due the token already counts as expired. */
  lemma ExpiredWithinItsSecond(s: Session, env: Env, p: JsValue, e: int)
    requires IsAuthed(s) && Payload(s, env) == Value(p)
    requires Get(p, "exp") == Number(Finite(e as real)) && e != 0
    ensures IsTokenExpired(s, env, e * 1000 + 999) == Value(true)
    ensures IsTokenExpired(s, env, e * 1000 - 1) == Value(false)
  {
    assert (e * 1000 + 999) / 1000 == e;
    assert (e * 1000 - 1) / 1000 == e - 1;
  }

  /** A token `header.segment.rest` with a dot-free header and segment has `segment`
      as its second part, whatever `rest` holds. */
  lemma TokenParts(header: string, segment: string, rest: string)
    requires '.' !in header && '.' !in segment
    ensures var parts := Split(header + "." + segment + "." + rest, '.');
            |parts| >= 2 && parts[0] == header && parts[1] == segment
  {
    var sep := '.';
    assert header + "." + segment + "." + rest == header + [sep] + (segment + [sep] + rest);
    SplitCons(header, sep, segment + [sep] + rest);
    SplitCons(segment, sep, rest);
  }

  /** The claims of a token are its second segment, rewritten to base64, decoded and
      parsed: a segment that does not decode throws, one that decodes but is not JSON
      gives `{}`, and parsed JSON is returned as it is. */
  lemma DecodeTokenClaims(header: string, segment: string, rest: string, env: Env)
    requires '.' !in header && '.' !in segment
    ensures var r := DecodeJwt(header + "." + segment + "." + rest, env);
            var d := env.decodeSegment(Base64UrlToBase64(segment));
            && (d.None? ==> r == Threw)
            && (d.Some? && env.parseJson(d.value).None? ==> r == Value(NoClaims))
            && (d.Some? && env.parseJson(d.value).Some? ==> r == Value(env.parseJson(d.value).value))
  {
    TokenParts(header, segment, rest);
  }

  /** The role of a stored token whose claims parse: the upper-cased string claim, `''`
      for a missing one, a throw for any other. */
  lemma RoleOfToken(s: Session, header: string, segment: string, rest: string, env: Env, claims: JsValue)
    requires s.token == Some(header + "." + segment + "." + rest)
    requires '.' !in header && '.' !in segment
    requires env.decodeSegment(Base64UrlToBase64(segment)).Some?
    requires env.parseJson(env.decodeSegment(Base64UrlToBase64(segment)).value) == Some(claims)
    ensures Get(claims, "role").Str? ==> Role(s, env) == Value(Upper(Get(claims, "role").s))
    ensures Get(claims, "role").Nullish() ==> Role(s, env) == Value("")
    ensures !Get(claims, "role").Str? && !Get(claims, "role").Nullish() ==> Role(s, env) == Threw
  {
    DecodeTokenClaims(header, segment, rest, env);
  }

  /** A token without dots decodes to the empty claim set: authenticated, role `''`,
      not admin, never expired. */
  lemma MalformedTokenIsAnonymousClaims(s: Session, env: Env, nowMs: int)
    requires IsAuthed(s) && '.' !in s.token.value
    ensures Role(s, env) == Value("") && IsAdmin(s, env) == Value(false)
    ensures IsTokenExpired(s, env, nowMs) == Value(false)
  {
  }
}

=== FILE: catalog_api.dfy ===
/** The public catalog's product query (catalog-api.service.ts, `getProducts`):
    defaults for page, size, sort and direction, a trimmed keyword that is left
    out when empty, and a category that is left out only when absent. */
module CatalogApi {
  import opened Js
  import opened Strings
  import opened Models

  /** The caller's parameters; `page` is 1-based. `cat` null and undefined are both None. */
  datatype GetProductsParams = GetProductsParams(
    page: Option<int>,
    size: Option<int>,
    q: Option<string>,
    cat: Option<int>,
    sort: Option<SortField>,
    dir: Option<SortDir>)

  /** The parameter names `getProducts` sets. */
  datatype Param = PageParam | SizeParam | SortParam | DirParam | QParam | CatParam {
    /** The name as it appears in the query string. */
    function Name(): string {
      match this
      case PageParam => "page"
      case SizeParam => "size"
      case SortParam => "sort"
      case DirParam => "dir"
      case QParam => "q"
      case CatParam => "cat"
    }
  }

  /** Distinct parameters have distinct names on the wire. */
  lemma NamesDistinct(a: Param, b: Param)
    ensures a.Name() == b.Name() <==> a == b
  {
  }

  /** HttpParams after `set` calls only: each name carries one value, and `set` replaces it. */
  type Query = map<Param, string>

  const DefaultPage: int := 1
  const DefaultSize: int := 10
  const DefaultSort: SortField := SortName
  const DefaultDir: SortDir := Asc

  /** `params.get(key)`. */
  function Lookup(ps: Query, key: Param): (r: Option<string>)
    ensures r.Some? <==> key in ps
  {
    if key in ps then Some(ps[key]) else None
  }

  /** The keyword as sent: trimmed, and only when something is left. */
  function Keyword(p: GetProductsParams): Option<string> {
    var t := Trim(p.q.GetOr(""));
    if t != "" then Some(t) else None
  }

  /** The query string of `GET /products`. */
  function ProductsQuery(p: GetProductsParams): (q: Query)
    ensures forall k: Param :: k in q <==> (k == QParam ==> Keyword(p).Some?) && (k == CatParam ==> p.cat.Some?)
    ensures Lookup(q, PageParam) == Some(IntToString(p.page.GetOr(DefaultPage)))
    ensures Lookup(q, SizeParam) == Some(IntToString(p.size.GetOr(DefaultSize)))
    ensures Lookup(q, SortParam) == Some(p.sort.GetOr(DefaultSort).Wire())
    ensures Lookup(q, DirParam) == Some(p.dir.GetOr(DefaultDir).Wire())
    ensures Lookup(q, QParam).Some? <==> Trim(p.q.GetOr("")) != ""
    ensures Lookup(q, QParam).Some? ==> Lookup(q, QParam).value == Trim(p.q.GetOr(""))
    ensures Lookup(q, CatParam) == if p.cat.Some? then Some(IntToString(p.cat.value)) else None
  {
    map k: Param | Sent(p, k) :: ValueOf(p, k)
  }

  /** Whether `getProducts` sets parameter `k`: the four fixed ones always, `q` when
      the trimmed keyword is non-empty, `cat` when a category is given. */
  predicate Sent(p: GetProductsParams, k: Param) {
    match k
    case QParam => Keyword(p).Some?
    case CatParam => p.cat.Some?
    case _ => true
  }

  /** The text `getProducts` sets for parameter `k`, defaults applied. */
  function ValueOf(p: GetProductsParams, k: Param): string
    requires Sent(p, k)
  {
    match k
    case PageParam => IntToString(p.page.GetOr(DefaultPage))
    case SizeParam => IntToString(p.size.GetOr(DefaultSize))
    case SortParam => p.sort.GetOr(DefaultSort).Wire()
    case DirParam => p.dir.GetOr(DefaultDir).Wire()
    case QParam => Keyword(p).value
    case CatParam => IntToString(p.cat.value)
  }

  // ---------------------------------------------------------------- the reading side

  /** The values the query carries once defaults are applied. */
  datatype ProductsQueryValues = ProductsQueryValues(
    page: int,
    size: int,
    sort: SortField,
    dir: SortDir,
    q: Option<string>,
    cat: Option<int>)

  /** The caller's parameters with the service's defaults and keyword rule applied. */
  function Normalize(p: GetProductsParams): ProductsQueryValues {
    ProductsQueryValues(
      p.page.GetOr(DefaultPage), p.size.GetOr(DefaultSize),
      p.sort.GetOr(DefaultSort), p.dir.GetOr(DefaultDir),
      Keyword(p), p.cat)
  }

  function ParseSort(s: string): Option<SortField> {
    if s == "name" then Some(SortName) else if s == "price" then Some(SortPrice) else None
  }

  function ParseDir(s: string): Option<SortDir> {
    if s == "asc" then Some(Asc) else if s == "desc" then Some(Desc) else None
  }

  lemma ParseSortWire(f: SortField)
    ensures ParseSort(f.Wire()) == Some(f)
  {
    assert f.Wire() == "name" || f.Wire() == "price";
  }

  lemma ParseDirWire(d: SortDir)
    ensures ParseDir(d.Wire()) == Some(d)
  {
    assert d.Wire() == "asc" || d.Wire() == "desc";
  }

  /** How a receiver reads the query back: the four fixed parameters must be
      present and well-formed, `q` and `cat` are optional. */
  function ReadQuery(ps: Query): Option<ProductsQueryValues> {
    var page := Lookup(ps, PageParam);
    var size := Lookup(ps, SizeParam);
    var sort := Lookup(ps, SortParam);
    var dir := Lookup(ps, DirParam);
    if page.None? || size.None? || sort.None? || dir.None? then None
    else
      var pg := ParseInt(page.value);
      var sz := ParseInt(size.value);
      var st := ParseSort(sort.value);
      var dr := ParseDir(dir.value);
      var cat := Lookup(ps, CatParam);
      var ct := if cat.Some? then ParseInt(cat.value) else None;
      if pg.None? || sz.None? || st.None? || dr.None? || (cat.Some? && ct.None?) then None
      else Some(ProductsQueryValues(pg.value, sz.value, st.value, dr.value, Lookup(ps, QParam), ct))
  }

  /** Reading the query back recovers exactly the defaulted, trimmed parameters:
      nothing is lost or invented, and category 0 survives. */
  lemma ReadProductsQuery(p: GetProductsParams)
    ensures ReadQuery(ProductsQuery(p)) == Some(Normalize(p))
  {
    var q := ProductsQuery(p);
    var n := Normalize(p);
    ParseIntToString(n.page);
    ParseIntToString(n.size);
    assert ParseInt(Lookup(q, PageParam).value) == Some(n.page);
    assert ParseInt(Lookup(q, SizeParam).value) == Some(n.size);
    ParseSortWire(n.sort);
    ParseDirWire(n.dir);
    assert Lookup(q, QParam) == n.q;
    if p.cat.Some? {
      ParseIntToString(p.cat.value);
      assert ParseInt(Lookup(q, CatParam).value) == Some(p.cat.value);
    } else {
      assert Lookup(q, CatParam) == None;
    }
  }

  /** With no keyword or a blank one, and no category, only the four fixed parameters are sent. */
  lemma BlankKeywordOmitted(p: GetProductsParams)
    requires p.q.None? || AllSpace(p.q.value)
    requires p.cat.None?
    ensures ProductsQuery(p).Keys == {PageParam, SizeParam, SortParam, DirParam}
  {
    TrimEmptyIff(p.q.GetOr(""));
  }
}

=== FILE: editor_page.dfy ===
/** The editor page (admin-product-editor-page.component.ts): the route's `id`
    parameter decides between create mode, a redirect for a bad id, and edit mode
    with one fetch of the product. */
module EditorPage {
  import opened Js
  import opened Models

  datatype EditorView = EditorView(productId: Option<Num>, product: Option<ProductResponse>, loading: bool)

  /** The product fetch (`getProductById`, outside this model), or a navigation. */
  datatype Effect = Fetch(id: Num) | Navigate(to: Nav)

  datatype Step = Step(view: EditorView, effects: seq<Effect>)

  const Initial: EditorView := EditorView(None, None, false)

  const ListPath: string := "/admin/products"

  /** `isEditMode`. */
  predicate IsEditMode(v: EditorView) {
    v.productId != None
  }

  /** The id the route asks for: an empty or missing parameter is no id; any other text
      is read by `Number`. */
  function RouteId(idParam: Option<string>, toNumber: string -> Num): (id: Option<Num>)
    ensures id.Some? <==> idParam.Some? && idParam.value != ""
    ensures id.Some? ==> id.value == toNumber(idParam.value)
  {
    if idParam.Some? && idParam.value != "" then Some(toNumber(idParam.value)) else None
  }

  /** An id the page will fetch: finite and positive. */
  predicate UsableId(n: Num) {
    n.IsFinite() && !n.AtMost(0.0)
  }

  /** `ngOnInit`. */
  function Init(v: EditorView, idParam: Option<string>, toNumber: string -> Num): (r: Step)
    ensures r.view.productId == RouteId(idParam, toNumber)
    ensures RouteId(idParam, toNumber).None? ==>
              r.view == v.(productId := None, product := None) && r.effects == []
    ensures RouteId(idParam, toNumber).Some? && !UsableId(RouteId(idParam, toNumber).value) ==>
              r.view == v.(productId := RouteId(idParam, toNumber))
              && r.effects == [Navigate(Nav(ListPath, None))]
    ensures RouteId(idParam, toNumber).Some? && UsableId(RouteId(idParam, toNumber).value) ==>
              r.view == v.(productId := RouteId(idParam, toNumber), loading := true)
              && r.effects == [Fetch(RouteId(idParam, toNumber).value)]
  {
    var id := RouteId(idParam, toNumber);
    var w := v.(productId := id);
    match id
    case None => Step(w.(product := None), [])
    case Some(n) =>
      if !n.IsFinite() || n.AtMost(0.0) then Step(w, [Navigate(Nav(ListPath, None))])
      else Step(w.(loading := true), [Fetch(n)])
  }

  function OnFetched(v: EditorView, p: ProductResponse): Step {
    Step(v.(product := Some(p), loading := false), [])
  }

  /** A failed fetch sends the user back to the list. */
  function OnFetchFailed(v: EditorView): Step {
    Step(v.(loading := false), [Navigate(Nav(ListPath, None))])
  }

  /** Initialisation has exactly one of three outcomes: create mode with nothing started,
      a redirect to the list, or one fetch; and it fetches only in edit mode. */
  lemma InitOutcomes(v: EditorView, idParam: Option<string>, toNumber: string -> Num)
    ensures var r := Init(v, idParam, toNumber);
            && (r.effects == [] || r.effects == [Navigate(Nav(ListPath, None))]
                || (|r.effects| == 1 && r.effects[0].Fetch?))
            && (r.effects == [] <==> !IsEditMode(r.view))
            && (r.effects != [] && r.effects[0].Fetch? ==> IsEditMode(r.view) && r.view.loading)
  {
  }

  /** An id that reads as zero, a negative number or NaN redirects; the page stays in
      edit mode (the id was stored first) and fetches nothing. */
  lemma BadIdRedirects(v: EditorView, text: string, toNumber: string -> Num)
    requires text != ""
    requires toNumber(text) == NaN || toNumber(text).AtMost(0.0)
    ensures var r := Init(v, Some(text), toNumber);
            r.effects == [Navigate(Nav(ListPath, None))] && IsEditMode(r.view) && r.view.loading == v.loading
  {
  }

  /** The fetch that initialisation starts ends loading either way: a product lands in
      the page, still in edit mode, or the user is sent back to the list. */
  lemma FetchSettles(v: EditorView, idParam: Option<string>, toNumber: string -> Num, p: ProductResponse)
    requires RouteId(idParam, toNumber).Some? && UsableId(RouteId(idParam, toNumber).value)
    ensures var i := Init(v, idParam, toNumber);
            && i.view.loading
            && OnFetched(i.view, p).view == i.view.(product := Some(p), loading := false)
            && IsEditMode(OnFetched(i.view, p).view)
            && OnFetched(i.view, p).effects == []
            && !OnFetchFailed(i.view).view.loading
            && OnFetchFailed(i.view).effects == [Navigate(Nav(ListPath, None))]
  {
  }
}

=== FILE: js.dfy ===
/** The small part of JavaScript's value semantics the console relies on:
    absent values, numbers with their non-finite members, truthiness,
    optional chaining (`?.`) and nullish coalescing (`??`). */
module Js {

  /** `T | null | undefined` in the source: both absent forms collapse to None
      wherever the source does not tell them apart. */
  datatype Option<+T> = None | Some(value: T) {
    function GetOr(default: T): T {
      match this
      case Some(v) => v
      case None => default
    }
  }

  /** A JavaScript number. Finite values are kept as exact rationals. */
  datatype Num = Finite(v: real) | NaN | PosInf | NegInf {

    /** `!!n`: zero and NaN are falsy. */
    predicate Truthy() {
      match this
      case Finite(x) => x != 0.0
      case NaN => false
      case _ => true
    }

    /** `Number.isFinite(n)`. */
    predicate IsFinite() {
      Finite?
    }

    /** `n <= bound`: a comparison with NaN is false. */
    predicate AtMost(bound: real) {
      match this
      case Finite(x) => x <= bound
      case NaN => false
      case PosInf => false
      case NegInf => true
    }
  }

  /** A JSON-like runtime value: what a decoded claim set or an error payload can be. */
  datatype JsValue =
    | Undefined
    | Null
    | Bool(b: bool)
    | Number(n: Num)
    | Str(s: string)
    | Obj(fields: map<string, JsValue>)
  {
    /** `v == null`, i.e. the values `??` and `?.` skip over. */
    predicate Nullish() {
      Undefined? || Null?
    }

    /** `!!v`. */
    predicate Truthy() {
      match this
      case Undefined => false
      case Null => false
      case Bool(b) => b
      case Number(n) => n.Truthy()
      case Str(s) => s != ""
      case Obj(_) => true
    }
  }

  /** `v?.[key]` for the property names the console reads (`role`, `exp`,
      `error`, `message`, `token`): only objects own them; every other value,
      and a missing property, yields undefined. */
  function Get(v: JsValue, key: string): (r: JsValue)
    ensures !v.Obj? ==> r == Undefined
    ensures v.Obj? && key !in v.fields ==> r == Undefined
  {
    match v
    case Obj(fields) => if key in fields then fields[key] else Undefined
    case _ => Undefined
  }

  /** `a ?? b`. */
  function Coalesce(a: JsValue, b: JsValue): (r: JsValue)
    ensures !a.Nullish() ==> r == a
    ensures a.Nullish() ==> r == b
  {
    if a.Nullish() then b else a
  }

  /** The message an HTTP error carries, read as `e?.error?.message ?? e?.error?.error`:
      the backend's error envelope is `{ error: { message?, error? } }`. */
  function ErrorDetail(e: JsValue): JsValue {
    Coalesce(Get(Get(e, "error"), "message"), Get(Get(e, "error"), "error"))
  }

  /** `ErrorDetail(e) ?? fallback`, the message a screen shows after a failed call. */
  function ErrorText(e: JsValue, fallback: string): (r: JsValue)
    ensures !r.Nullish()
  {
    Coalesce(ErrorDetail(e), Str(fallback))
  }

  /** Error precedence: a present `message` wins, then a present `error`, then the fallback.
      Only null and undefined fall through, so an empty-string message is still shown. */
  lemma ErrorTextPrecedence(e: JsValue, fallback: string)
    ensures var m := Get(Get(e, "error"), "message");
            var x := Get(Get(e, "error"), "error");
            && (!m.Nullish() ==> ErrorText(e, fallback) == m)
            && (m.Nullish() && !x.Nullish() ==> ErrorText(e, fallback) == x)
            && (m.Nullish() && x.Nullish() ==> ErrorText(e, fallback) == Str(fallback))
  {
  }

  /** An error that is not an object (a string, a network-level null) always falls back. */
  lemma ErrorTextOfNonObject(e: JsValue, fallback: string)
    requires !e.Obj?
    ensures ErrorText(e, fallback) == Str(fallback)
  {
  }
}

=== FILE: list_page.dfy ===
/** The admin product list (admin-product-list-page.component.ts) as an immutable
    view state with one transition per UI event and per backend response. Every
    transition returns the requests and navigations it starts as effects. */
module ListPage {
  import opened Js
  import opened Strings
  import opened Models

  datatype ListView = ListView(
    items: seq<ProductResponse>,
    loading: bool,
    err: JsValue,                 // Null when cleared
    keyword: string,              // the applied keyword
    kwModel: string,              // the search box's text, applied on Search
    catId: Option<real>,
    statusFilter: StatusFilter,
    sortBy: Option<SortField>,
    sortDir: SortDir,
    page: int,                    // 1-based
    pageSize: int,
    totalPages: int,
    totalElements: int,
    busyId: Option<int>)

  /** Side effects, returned as data: a list request (`productService.list`), an
      enable or disable call, or a navigation. */
  datatype Effect =
    | Load(req: PageProductRequest, status: StatusFilter)
    | SetActive(id: int, enable: bool)
    | Navigate(to: Nav)

  datatype Step = Step(view: ListView, effects: seq<Effect>)

  const Initial: ListView :=
    ListView([], false, Null, "", "", None, All, None, Desc, 1, 10, 0, 0, None)

  /** The page invariant: the page is at least 1, and within the known page count. */
  predicate PageInRange(v: ListView) {
    v.page >= 1 && (v.totalPages > 0 ==> v.page <= v.totalPages)
  }

  /** The invariant every transition keeps: from an in-range page it stays in range, and
      every list request it starts asks for a non-negative (0-based) page. */
  predicate KeepsRange(v: ListView, r: Step) {
    PageInRange(v) ==> PageInRange(r.view) && LoadsNonNegative(r.effects)
  }

  // ---------------------------------------------------------------- reload

  /** The request `reload` sends: the page is sent 0-based, the keyword trimmed and
      left out when empty, the category left out when absent. */
  function Request(v: ListView): (r: PageProductRequest)
    ensures r.page == v.page - 1 && r.size == v.pageSize
    ensures r.q.Some? <==> Trim(v.keyword) != ""
    ensures r.q.Some? ==> r.q.value == Trim(v.keyword)
    ensures r.cat == v.catId && r.sort == v.sortBy && r.dir == Some(v.sortDir)
  {
    var t := Trim(v.keyword);
    PageProductRequest(v.page - 1, v.pageSize, if t != "" then Some(t) else None,
                       v.catId, v.sortBy, Some(v.sortDir))
  }

  /** `reload`: clears the error, shows the spinner and issues exactly one list request
      for the resulting state. */
  function Reload(v: ListView): (r: Step)
    ensures r.view == v.(err := Null, loading := true)
    ensures r.effects == [Load(Request(r.view), r.view.statusFilter)]
  {
    var w := v.(err := Null, loading := true);
    Step(w, [Load(Request(w), w.statusFilter)])
  }

  /** The single effect of a step is a reload of its own view from page `p`. */
  predicate ReloadsFrom(r: Step, p: int) {
    && r.view.page == p
    && r.view.loading && r.view.err == Null
    && r.effects == [Load(Request(r.view), r.view.statusFilter)]
  }

  // ---------------------------------------------------------------- filter, sort, paging

  function Init(v: ListView): (r: Step)
    ensures r.view == v.(kwModel := v.keyword, loading := true, err := Null)
    ensures ReloadsFrom(r, v.page)
    ensures KeepsRange(v, r)
  {
    var w := v.(kwModel := v.keyword);
    assert w.(err := Null, loading := true) == v.(kwModel := v.keyword, loading := true, err := Null);
    Reload(w)
  }

  /** The search box's two-way binding: typing changes only `kwModel`. */
  function TypeKeyword(v: ListView, text: string): (r: Step)
    ensures r.view.kwModel == text && r.effects == []
    ensures r.view.(kwModel := v.kwModel) == v
    ensures KeepsRange(v, r)
  {
    Step(v.(kwModel := text), [])
  }

  /** `onKeyword`: sets the applied keyword without reloading. */
  function OnKeyword(v: ListView, text: string): (r: Step)
    ensures r.view.keyword == text && r.effects == []
    ensures r.view.(keyword := v.keyword) == v
    ensures KeepsRange(v, r)
  {
    Step(v.(keyword := text), [])
  }

  function ApplyKeyword(v: ListView): (r: Step)
    ensures r.view == v.(keyword := v.kwModel, page := 1, loading := true, err := Null)
    ensures ReloadsFrom(r, 1)
    ensures KeepsRange(v, r)
  {
    Reload(v.(keyword := v.kwModel, page := 1))
  }

  function ClearKeyword(v: ListView): (r: Step)
    ensures r.view == v.(keyword := "", kwModel := "", page := 1, loading := true, err := Null)
    ensures ReloadsFrom(r, 1)
    ensures Request(r.view).q == None
    ensures KeepsRange(v, r)
  {
    assert Trim("") == "" by { TrimEmptyIff(""); }
    Reload(v.(kwModel := "", keyword := "", page := 1))
  }

  function ChangeStatus(v: ListView, status: StatusFilter): (r: Step)
    ensures r.view == v.(statusFilter := status, page := 1, loading := true, err := Null)
    ensures ReloadsFrom(r, 1)
    ensures KeepsRange(v, r)
  {
    Reload(v.(statusFilter := status, page := 1))
  }

  function ChangeCategory(v: ListView, cat: Option<real>): (r: Step)
    ensures r.view == v.(catId := cat, page := 1, loading := true, err := Null)
    ensures ReloadsFrom(r, 1)
    ensures KeepsRange(v, r)
  {
    Reload(v.(catId := cat, page := 1))
  }

  /** `onChangeSort`: the current field flips its direction, another field starts ascending. */
  function ChangeSort(v: ListView, field: SortField): (r: Step)
    ensures r.view.sortBy == Some(field)
    ensures v.sortBy == Some(field) ==> r.view.sortDir == v.sortDir.Flip() && r.view.sortDir != v.sortDir
    ensures v.sortBy != Some(field) ==> r.view.sortDir == Asc
    ensures r.view == v.(sortBy := Some(field), sortDir := r.view.sortDir, page := 1, loading := true, err := Null)
    ensures ReloadsFrom(r, 1)
    ensures KeepsRange(v, r)
  {
    if v.sortBy == Some(field) then Reload(v.(sortDir := v.sortDir.Flip(), page := 1))
    else Reload(v.(sortBy := Some(field), sortDir := Asc, page := 1))
  }

  /** `prev`: nothing below page 1. */
  function Prev(v: ListView): (r: Step)
    ensures v.page <= 1 ==> r == Step(v, [])
    ensures v.page > 1 ==> ReloadsFrom(r, v.page - 1)
    ensures v.page > 1 ==> r.view == v.(page := v.page - 1, loading := true, err := Null)
    ensures v.page >= 1 ==> r.view.page >= 1
    ensures KeepsRange(v, r)
  {
    if v.page <= 1 then Step(v, []) else Reload(v.(page := v.page - 1))
  }

  /** `next`: nothing past the last known page; with no known page count it always advances. */
  function Next(v: ListView): (r: Step)
    ensures v.totalPages > 0 && v.page >= v.totalPages ==> r == Step(v, [])
    ensures !(v.totalPages > 0 && v.page >= v.totalPages) ==> ReloadsFrom(r, v.page + 1)
    ensures !(v.totalPages > 0 && v.page >= v.totalPages) ==>
              r.view == v.(page := v.page + 1, loading := true, err := Null)
    ensures PageInRange(v) ==> PageInRange(r.view)
    ensures KeepsRange(v, r)
  {
    if v.totalPages > 0 && v.page >= v.totalPages then Step(v, [])
    else Reload(v.(page := v.page + 1))
  }

  /** `parseCat`: blank text is no category; text that `Number` reads as a finite value is that value. */
  function ParseCat(text: string, toNumber: string -> Num): (r: Option<real>)
    ensures AllSpace(text) ==> r == None
    ensures !AllSpace(text) && toNumber(Trim(text)).Finite? ==> r == Some(toNumber(Trim(text)).v)
    ensures r.Some? ==> !AllSpace(text) && toNumber(Trim(text)) == Finite(r.value)
  {
    var t := Trim(text);
    TrimEmptyIff(text);
    if t == "" then None
    else match toNumber(t)
      case Finite(x) => Some(x)
      case _ => None
  }

  /** Surrounding white space does not change the category read. */
  lemma ParseCatOfTrimmed(text: string, toNumber: string -> Num)
    ensures ParseCat(Trim(text), toNumber) == ParseCat(text, toNumber)
  {
    TrimIdempotent(text);
    TrimEmptyIff(text);
    TrimEmptyIff(Trim(text));
  }

  function GoCreate(v: ListView): (r: Step)
    ensures r.view == v && r.effects == [Navigate(Nav("/admin/products/new", None))]
    ensures KeepsRange(v, r)
  {
    Step(v, [Navigate(Nav("/admin/products/new", None))])
  }

  /** The editor route for a product: `/admin/products/<id>/edit`. */
  function EditPath(id: int): string {
    "/admin/products/" + IntToString(id) + "/edit"
  }

  function GoEdit(v: ListView, id: int): (r: Step)
    ensures r.view == v && r.effects == [Navigate(Nav(EditPath(id), None))]
    ensures KeepsRange(v, r)
  {
    Step(v, [Navigate(Nav(EditPath(id), None))])
  }

  /** The editor's `:id` segment of the edit route reads back as the product's id. */
  lemma EditPathRoundTrip(id: int)
    ensures var parts := Split(EditPath(id), '/');
            |parts| == 5 && parts[..3] == ["", "admin", "products"] && parts[4] == "edit"
            && ParseInt(parts[3]) == Some(id)
  {
    var d := IntToString(id);
    EditPathSegments(d);
    ParseIntToString(id);
  }

  /** The edit route is the join of its five segments, so splitting it gives them back. */
  lemma EditPathSegments(d: string)
    requires '/' !in d
    ensures Split("/admin/products/" + d + "/edit", '/') == ["", "admin", "products", d, "edit"]
  {
    EditPathJoin(d);
    SplitJoin(["", "admin", "products", d, "edit"], '/');
  }

  /** Joining the five segments of the edit route with `/` spells the route. */
  lemma EditPathJoin(d: string)
    ensures Join(["", "admin", "products", d, "edit"], '/') == "/admin/products/" + d + "/edit"
  {
    var sep := '/';
    JoinFront(d, ["edit"], sep);
    JoinFront("products", [d, "edit"], sep);
    JoinFront("admin", ["products", d, "edit"], sep);
    JoinFront("", ["admin", "products", d, "edit"], sep);
    Unnest("admin", "products", d, "edit", sep);
    assert [sep] + "admin" + [sep] + "products" + [sep] == "/admin/products/";
    assert [sep] + "edit" == "/edit";
  }

  lemma Unnest(a: string, b: string, c: string, e: string, sep: char)
    ensures "" + [sep] + (a + [sep] + (b + [sep] + (c + [sep] + e)))
            == ([sep] + a + [sep] + b + [sep]) + c + ([sep] + e)
  {
  }

  /** Joining a list with a first segment in front puts the segment and a separator in front. */
  lemma JoinFront(h: string, rest: seq<string>, sep: char)
    requires |rest| >= 1
    ensures Join([h] + rest, sep) == h + [sep] + Join(rest, sep)
  {
    assert ([h] + rest)[1..] == rest;
  }

  // ---------------------------------------------------------------- list responses

  /** A list response: items and totals are replaced; a page now past the last page is
      pulled back to the last page with exactly one more request. */
  function OnLoaded(v: ListView, res: Page<ProductResponse>): (r: Step)
    ensures r.view.items == res.content
    ensures r.view.totalPages == res.totalPages && r.view.totalElements == res.totalElements
    ensures res.totalPages > 0 && v.page > res.totalPages ==>
              && ReloadsFrom(r, res.totalPages)
              && r.view == v.(items := res.content, totalPages := res.totalPages,
                              totalElements := res.totalElements, page := res.totalPages,
                              loading := true, err := Null)
    ensures !(res.totalPages > 0 && v.page > res.totalPages) ==>
              && r.effects == []
              && r.view == v.(items := res.content, totalPages := res.totalPages,
                              totalElements := res.totalElements, loading := false)
    ensures v.page >= 1 ==> PageInRange(r.view)
    ensures KeepsRange(v, r)
  {
    var w := v.(items := res.content, totalPages := res.totalPages,
                totalElements := res.totalElements, loading := false);
    if res.totalPages > 0 && w.page > res.totalPages then Reload(w.(page := res.totalPages))
    else Step(w, [])
  }

  /** A list failure: items stay, the spinner stops, and the error is shown. */
  function OnLoadFailed(v: ListView, e: JsValue): (r: Step)
    ensures r.view == v.(loading := false, err := ErrorText(e, "Load failed"))
    ensures r.effects == [] && !r.view.err.Nullish()
    ensures KeepsRange(v, r)
  {
    Step(v.(loading := false, err := ErrorText(e, "Load failed")), [])
  }

  /** The clamp is bounded: answering the corrective request with the same totals
      starts no further request. */
  lemma ClampSettles(v: ListView, res: Page<ProductResponse>)
    ensures OnLoaded(OnLoaded(v, res).view, res).effects == []
  {
  }

  // ---------------------------------------------------------------- toggling the active flag

  /** `arr.map(x => x.id === id ? { ...x, isActive: flag } : x)`. */
  function SetActiveFlag(items: seq<ProductResponse>, id: int, flag: bool): (r: seq<ProductResponse>)
    ensures |r| == |items|
    ensures forall i :: 0 <= i < |items| && items[i].id != id ==> r[i] == items[i]
    ensures forall i :: 0 <= i < |items| && items[i].id == id ==> r[i] == items[i].(isActive := flag)
  {
    if items == [] then []
    else
      var head := if items[0].id == id then items[0].(isActive := flag) else items[0];
      [head] + SetActiveFlag(items[1..], id, flag)
  }

  /** `toggleActive`: marks the row busy and calls disable for an active product,
      enable otherwise. It does not refuse a second toggle while one is in flight. */
  function ToggleActive(v: ListView, p: ProductResponse): (r: Step)
    ensures r.view == v.(busyId := Some(p.id), err := Null)
    ensures r.effects == [SetActive(p.id, !p.isActive)]
    ensures KeepsRange(v, r)
  {
    Step(v.(busyId := Some(p.id), err := Null), [SetActive(p.id, !p.isActive)])
  }

  /** The enable/disable call for product `id` succeeded; `wasActive` is the flag the
      toggle started from. Rows with that id take the opposite flag, nothing else changes. */
  function OnToggled(v: ListView, id: int, wasActive: bool): (r: Step)
    ensures r.view.busyId == None && r.effects == []
    ensures |r.view.items| == |v.items|
    ensures forall i :: 0 <= i < |v.items| ==>
              if v.items[i].id == id then r.view.items[i] == v.items[i].(isActive := !wasActive)
              else r.view.items[i] == v.items[i]
    ensures r.view.(items := v.items, busyId := v.busyId) == v
    ensures KeepsRange(v, r)
  {
    Step(v.(busyId := None, items := SetActiveFlag(v.items, id, !wasActive)), [])
  }

  function OnToggleFailed(v: ListView, e: JsValue): (r: Step)
    ensures r.view == v.(busyId := None, err := ErrorText(e, "Update status failed"))
    ensures r.effects == [] && r.view.items == v.items
    ensures KeepsRange(v, r)
  {
    Step(v.(busyId := None, err := ErrorText(e, "Update status failed")), [])
  }

  /** Disabling and then re-enabling a product restores the list, as long as every
      row with that id was active. */
  lemma {:induction false} ToggleRoundTrip(items: seq<ProductResponse>, id: int)
    requires forall i :: 0 <= i < |items| && items[i].id == id ==> items[i].isActive
    ensures SetActiveFlag(SetActiveFlag(items, id, false), id, true) == items
  {
    var once := SetActiveFlag(items, id, false);
    var twice := SetActiveFlag(once, id, true);
    forall i | 0 <= i < |items| ensures twice[i] == items[i] {
      if items[i].id == id {
        assert once[i] == items[i].(isActive := false);
      }
    }
  }

  // ---------------------------------------------------------------- the event loop

  datatype Event =
    | Started
    | Typed(text: string)
    | KeywordSet(text: string)
    | SearchClicked
    | ClearClicked
    | StatusChosen(status: StatusFilter)
    | CategoryChosen(cat: Option<real>)
    | SortClicked(field: SortField)
    | PrevClicked
    | NextClicked
    | CreateClicked
    | EditClicked(id: int)
    | Loaded(res: Page<ProductResponse>)
    | LoadFailed(e: JsValue)
    | ToggleClicked(p: ProductResponse)
    | Toggled(id: int, wasActive: bool)
    | ToggleFailed(e: JsValue)

  function Apply(v: ListView, ev: Event): Step {
    match ev
    case Started => Init(v)
    case Typed(t) => TypeKeyword(v, t)
    case KeywordSet(t) => OnKeyword(v, t)
    case SearchClicked => ApplyKeyword(v)
    case ClearClicked => ClearKeyword(v)
    case StatusChosen(s) => ChangeStatus(v, s)
    case CategoryChosen(c) => ChangeCategory(v, c)
    case SortClicked(f) => ChangeSort(v, f)
    case PrevClicked => Prev(v)
    case NextClicked => Next(v)
    case CreateClicked => GoCreate(v)
    case EditClicked(id) => GoEdit(v, id)
    case Loaded(res) => OnLoaded(v, res)
    case LoadFailed(e) => OnLoadFailed(v, e)
    case ToggleClicked(p) => ToggleActive(v, p)
    case Toggled(id, was) => OnToggled(v, id, was)
    case ToggleFailed(e) => OnToggleFailed(v, e)
  }

  /** Runs a sequence of events, collecting every effect in order. */
  function Run(v: ListView, evs: seq<Event>): Step
    decreases |evs|
  {
    if evs == [] then Step(v, [])
    else
      var first := Apply(v, evs[0]);
      var rest := Run(first.view, evs[1..]);
      Step(rest.view, first.effects + rest.effects)
  }

  /** Every list request in `effs` asks for a non-negative (0-based) page. */
  predicate LoadsNonNegative(effs: seq<Effect>) {
    forall k :: 0 <= k < |effs| ==> effs[k].Load? ==> effs[k].req.page >= 0
  }

  /** Every event keeps the page at least 1 and within the known page count, and
      the requests it starts ask for a non-negative page. */
  lemma ApplyKeepsPageInRange(v: ListView, ev: Event)
    requires PageInRange(v)
    ensures PageInRange(Apply(v, ev).view)
    ensures LoadsNonNegative(Apply(v, ev).effects)
  {
  }

  /** From any in-range state, any sequence of events keeps the page in range, so
      no list request ever asks for a negative page. */
  lemma {:induction false} RunKeepsPageInRange(v: ListView, evs: seq<Event>)
    requires PageInRange(v)
    ensures PageInRange(Run(v, evs).view)
    ensures LoadsNonNegative(Run(v, evs).effects)
    decreases |evs|
  {
    if evs != [] {
      var first := Apply(v, evs[0]);
      ApplyKeepsPageInRange(v, evs[0]);
      RunKeepsPageInRange(first.view, evs[1..]);
      var rest := Run(first.view, evs[1..]);
      var all := first.effects + rest.effects;
      assert Run(v, evs).effects == all;
      forall k | 0 <= k < |all| && all[k].Load? ensures all[k].req.page >= 0 {
        if k < |first.effects| {
          assert all[k] == first.effects[k];
        } else {
          assert all[k] == rest.effects[k - |first.effects|];
        }
      }
    }
  }

  lemma InitialInRange()
    ensures PageInRange(Initial)
  {
  }
}

=== FILE: login_page.dfy ===
/** The login screen (login.component.ts): form validation, the submit flow through
    the session store, the return-URL navigation on success, and the message shown
    on failure. */
module LoginPage {
  import opened Js
  import opened Strings
  import opened Models
  import opened Validators
  import Auth

  datatype LoginForm = LoginForm(email: string, password: string)

  datatype LoginView = LoginView(form: LoginForm, touched: bool, loading: bool, error: Option<string>)

  const Initial: LoginView := LoginView(LoginForm("", ""), false, false, None)

  /** The login call in flight, with the page to return to once it succeeds. */
  datatype LoginCall = LoginCall(req: LoginRequest, returnUrl: string)

  /** The form's validators: email required and address-shaped (the pattern is a
      parameter), password required and at least 6 characters. */
  predicate FormValid(f: LoginForm, isEmail: string -> bool) {
    && RequiredText(f.email) && Email(f.email, isEmail)
    && RequiredText(f.password) && MinLength(f.password, 6)
  }

  /** Validity spelled out: a non-empty address the pattern accepts and a password of
      at least 6 characters. */
  lemma FormValidIff(f: LoginForm, isEmail: string -> bool)
    ensures FormValid(f, isEmail) <==> f.email != "" && isEmail(f.email) && Utf16Length(f.password) >= 6
  {
  }

  /** `submit`: the error is cleared; an invalid form only marks the fields touched. */
  function Submit(v: LoginView, isEmail: string -> bool, returnUrlParam: Option<string>): (r: (LoginView, Option<LoginCall>))
    ensures r.0.error == None && r.0.form == v.form
    ensures !FormValid(v.form, isEmail) ==> r.1 == None && r.0 == v.(error := None, touched := true)
    ensures FormValid(v.form, isEmail) ==>
              && r.0 == v.(error := None, loading := true)
              && r.1 == Some(LoginCall(LoginRequest(v.form.email, v.form.password),
                                       returnUrlParam.GetOr("/")))
  {
    var w := v.(error := None);
    if !FormValid(v.form, isEmail) then (w.(touched := true), None)
    else (w.(loading := true),
          Some(LoginCall(LoginRequest(v.form.email, v.form.password), returnUrlParam.GetOr("/"))))
  }

  /** `extractErr`: a string error is itself; otherwise a string `error` field; otherwise a
      string `error.message`; otherwise nothing. */
  function ExtractErr(err: JsValue): (r: Option<string>)
    ensures err.Str? ==> r == Some(err.s)
    ensures !err.Str? && Get(err, "error").Str? ==> r == Some(Get(err, "error").s)
    ensures !err.Str? && !Get(err, "error").Str? && Get(Get(err, "error"), "message").Str? ==>
              r == Some(Get(Get(err, "error"), "message").s)
    ensures r.Some? ==> err.Str? || Get(err, "error").Str? || Get(Get(err, "error"), "message").Str?
  {
    match err
    case Str(s) => Some(s)
    case Obj(fields) =>
      if "error" in fields then
        match fields["error"]
        case Str(e) => Some(e)
        case Obj(inner) =>
          if "message" in inner && inner["message"].Str? then Some(inner["message"].s) else None
        case _ => None
      else None
    case _ => None
  }

  /** The login call's answer, passed through the session store and then the screen:
      success stores the token and navigates to the return URL; any failure, including a
      reply without a token, leaves the session alone and shows a message. */
  function OnLoginReply(v: LoginView, s: Auth.Session, call: LoginCall, reply: Auth.LoginReply)
    : (r: (LoginView, Auth.Session, Option<Nav>))
    ensures !r.0.loading
    ensures Auth.Login(s, reply).Stored? ==>
              && r.1 == Auth.Login(s, reply).session && Auth.IsAuthed(r.1)
              && r.2 == Some(Nav(call.returnUrl, None)) && r.0 == v.(loading := false)
    ensures Auth.Login(s, reply).LoginError? ==>
              && r.1 == s && r.2 == None
              && r.0 == v.(loading := false,
                           error := Some(ExtractErr(Auth.Login(s, reply).error).GetOr("Login failed")))
  {
    match Auth.Login(s, reply)
    case Stored(s') => (v.(loading := false), s', Some(Nav(call.returnUrl, None)))
    case LoginError(s', e) => (v.(loading := false, error := Some(ExtractErr(e).GetOr("Login failed"))), s', None)
  }

  /** A reply without a token surfaces as the generic message: the thrown error has no
      `error` field for the screen to read. */
  lemma MissingTokenShowsGenericMessage(v: LoginView, s: Auth.Session, call: LoginCall, data: Option<AuthResponse>)
    requires data.None? || data.value.token.None? || data.value.token.value == ""
    ensures var r := OnLoginReply(v, s, call, Auth.Replied(data));
            r.0.error == Some("Login failed") && r.1 == s && r.2 == None
  {
  }

  /** `extractErr` returns the string as given, so an empty string error is shown empty
      rather than replaced by the generic message. */
  lemma EmptyStringErrorShownAsIs(v: LoginView, s: Auth.Session, call: LoginCall)
    ensures OnLoginReply(v, s, call, Auth.HttpFailed(Str(""))).0.error == Some("")
  {
  }
}

=== FILE: models.dfy ===
/** The records the console exchanges with its backend (product.ts, page.model.ts,
    auth.types.ts) and the router navigations the screens request. */
module Models {
  import opened Js

  /** A product as the backend returns it. */
  datatype ProductResponse = ProductResponse(
    id: int,
    name: string,
    stock: int,
    price: real,
    categoryId: int,
    categoryName: string,
    isActive: bool,
    imageUrl: Option<string>,
    description: Option<string>)

  /** The body of a create or update call. */
  datatype UpsertProductRequest = UpsertProductRequest(
    name: string,
    stock: real,
    price: real,
    categoryId: real,
    isActive: Option<bool>,
    imageUrl: Option<string>,
    description: Option<string>)

  datatype SortField = SortName | SortPrice {
    function Wire(): string {
      match this
      case SortName => "name"
      case SortPrice => "price"
    }
  }

  datatype SortDir = Asc | Desc {
    function Wire(): string {
      match this
      case Asc => "asc"
      case Desc => "desc"
    }

    function Flip(): SortDir {
      match this
      case Asc => Desc
      case Desc => Asc
    }
  }

  /** The admin list's status filter: 'all' | 'active' | 'disabled'. */
  datatype StatusFilter = All | Active | Disabled

  /** The admin list's page request. Its page index is whatever the caller sends. */
  datatype PageProductRequest = PageProductRequest(
    page: int,
    size: int,
    q: Option<string>,
    cat: Option<real>,
    sort: Option<SortField>,
    dir: Option<SortDir>)

  /** A Spring page: `number` is 0-based. */
  datatype Page<T> = Page(
    content: seq<T>,
    totalElements: int,
    totalPages: int,
    size: int,
    number: int)

  datatype Category = Category(id: int, name: string)

  datatype LoginRequest = LoginRequest(email: string, password: string)

  /** The login reply's data; the token may be missing or empty. */
  datatype AuthResponse = AuthResponse(token: Option<string>)

  /** A router navigation: a path and, for the login redirect, a `returnUrl` query parameter. */
  datatype Nav = Nav(path: string, returnUrl: Option<string>)

  /** An uploaded or picked file, identified by name only. */
  datatype FileRef = FileRef(name: string)
}

=== FILE: product_form.dfy ===
/** The create/edit product form (product-form.component.ts): validation, the
    create-versus-update choice, the request it sends, the upload that starts as
    soon as a file is picked, and the bookkeeping after each backend answer. */
module ProductForm {
  import opened Js
  import opened Strings
  import opened Models
  import opened Validators

  /** The form controls. Number inputs that are emptied read as null (None). */
  datatype FormValue = FormValue(
    name: string,
    description: string,
    stock: Option<real>,
    price: Option<real>,
    categoryId: Option<real>,
    isActive: bool)

  /** The values the form is built with and reset to after a create. */
  const Defaults: FormValue := FormValue("", "", Some(1.0), Some(1.0), Some(1.0), true)

  /** What the image preview shows: nothing, a local object URL for a picked file,
      the public URL of an uploaded path, or the product's stored image URL as is. */
  datatype Preview = NoPreview | LocalFile(file: FileRef) | Served(path: string) | Stored(url: string)

  datatype FormView = FormView(
    productId: Option<Num>,       // the @Input; truthy means edit
    product: Option<ProductResponse>,
    form: FormValue,
    touched: bool,
    uploading: bool,
    saving: bool,
    imageUrl: Option<string>,
    preview: Preview,
    msg: Option<string>,
    err: JsValue,                 // Null when cleared
    categories: seq<Category>)

  datatype Effect =
    | Create(req: UpsertProductRequest)
    | Update(id: Num, req: UpsertProductRequest)
    | DisableProduct(id: Num)
    | Upload(file: FileRef)

  datatype Step = Step(view: FormView, effects: seq<Effect>)

  const Initial: FormView :=
    FormView(None, None, Defaults, false, false, false, None, NoPreview, None, Null, [])

  // ---------------------------------------------------------------- validation

  datatype Field = NameField | DescriptionField | StockField | PriceField | CategoryField

  datatype FieldError = Required(field: Field) | TooLong(field: Field, max: nat) | TooSmall(field: Field, min: real)

  /** The errors Angular reports, control by control, validator by validator. */
  function Errors(f: FormValue): seq<FieldError> {
    (if RequiredText(f.name) then [] else [Required(NameField)])
    + (if MaxLength(f.name, 100) then [] else [TooLong(NameField, 100)])
    + (if MaxLength(f.description, 500) then [] else [TooLong(DescriptionField, 500)])
    + (if RequiredNumber(f.stock) then [] else [Required(StockField)])
    + (if Min(f.stock, 1.0) then [] else [TooSmall(StockField, 1.0)])
    + (if RequiredNumber(f.price) then [] else [Required(PriceField)])
    + (if Min(f.price, 0.01) then [] else [TooSmall(PriceField, 0.01)])
    + (if RequiredNumber(f.categoryId) then [] else [Required(CategoryField)])
    + (if Min(f.categoryId, 1.0) then [] else [TooSmall(CategoryField, 1.0)])
  }

  /** The form group is valid when no control reports an error. */
  predicate Valid(f: FormValue) {
    Errors(f) == []
  }

  /** Validity spelled out: a non-empty name of at most 100 (UTF-16) characters, a
      description of at most 500, stock at least 1, price at least 0.01 and a
      category id at least 1, all three present. */
  lemma ValidIff(f: FormValue)
    ensures Valid(f) <==>
            && f.name != "" && Utf16Length(f.name) <= 100
            && Utf16Length(f.description) <= 500
            && f.stock.Some? && f.stock.value >= 1.0
            && f.price.Some? && f.price.value >= 0.01
            && f.categoryId.Some? && f.categoryId.value >= 1.0
  {
  }

  /** The form a create resets to is not submittable: its name is empty. */
  lemma DefaultsNeedAName()
    ensures !Valid(Defaults)
    ensures Valid(Defaults.(name := "x"))
  {
    assert Errors(Defaults)[0] == Required(NameField);
    assert Utf16Length("x") == 1;
  }

  // ---------------------------------------------------------------- submit

  /** A product id selects update when it is truthy: null, 0 and NaN all create. */
  predicate IsEdit(v: FormView) {
    v.productId.Some? && v.productId.value.Truthy()
  }

  /** The request built from the form: `Number(...)` of each number control (null reads
      as 0), the current image URL or nothing, the description as is. */
  function BuildRequest(v: FormView): (req: UpsertProductRequest)
    ensures req.name == v.form.name && req.isActive == Some(v.form.isActive)
    ensures req.imageUrl == v.imageUrl && req.description == Some(v.form.description)
    ensures v.form.stock.Some? ==> req.stock == v.form.stock.value
    ensures v.form.price.Some? ==> req.price == v.form.price.value
    ensures v.form.categoryId.Some? ==> req.categoryId == v.form.categoryId.value
  {
    UpsertProductRequest(
      v.form.name,
      v.form.stock.GetOr(0.0), v.form.price.GetOr(0.0), v.form.categoryId.GetOr(0.0),
      Some(v.form.isActive), v.imageUrl, Some(v.form.description))
  }

  /** `submit`: an invalid form sends nothing; a valid one sends exactly one save,
      an update for a truthy product id and a create otherwise. */
  function Submit(v: FormView): (r: Step)
    ensures r.view.msg == None
    ensures !Valid(v.form) ==>
              r.effects == [] && r.view.err == Str("Form invalid") && r.view.touched
              && r.view.saving == v.saving
    ensures Valid(v.form) ==> r.view.saving && r.view.err == Null && |r.effects| == 1
    ensures Valid(v.form) && IsEdit(v) ==> r.effects == [Update(v.productId.value, BuildRequest(v))]
    ensures Valid(v.form) && !IsEdit(v) ==> r.effects == [Create(BuildRequest(v))]
    ensures r.view.form == v.form && r.view.imageUrl == v.imageUrl
    ensures !Valid(v.form) ==> r.view == v.(msg := None, err := Str("Form invalid"), touched := true)
    ensures Valid(v.form) ==> r.view == v.(msg := None, err := Null, saving := true)
  {
    var w := v.(msg := None, err := Null);
    if !Valid(v.form) then Step(w.(touched := true, err := Str("Form invalid")), [])
    else
      var req := BuildRequest(w);
      Step(w.(saving := true), [if IsEdit(w) then Update(w.productId.value, req) else Create(req)])
  }

  /** A request that passed validation respects the backend's bounds. */
  lemma SubmittedRequestInBounds(v: FormView)
    requires Valid(v.form)
    ensures var r := Submit(v);
            var req := r.effects[0].req;
            && req.name != "" && Utf16Length(req.name) <= 100
            && req.stock >= 1.0 && req.price >= 0.01 && req.categoryId >= 1.0
  {
    ValidIff(v.form);
  }

  /** The save succeeded. A create resets the form, the image and the preview; an update
      keeps them. */
  function OnSaved(v: FormView): (r: Step)
    ensures !r.view.saving && r.effects == []
    ensures IsEdit(v) ==> r.view == v.(saving := false, msg := Some("Updated product ok"))
    ensures !IsEdit(v) ==>
              r.view == v.(saving := false, msg := Some("Created product ok"), form := Defaults,
                           touched := false, imageUrl := None, preview := NoPreview)
  {
    var w := v.(saving := false, msg := Some(if IsEdit(v) then "Updated product ok" else "Created product ok"));
    if IsEdit(v) then Step(w, [])
    else Step(w.(form := Defaults, touched := false, imageUrl := None, preview := NoPreview), [])
  }

  /** `pickErr`: the error's message, else its error field, else null. */
  function PickErr(e: JsValue): JsValue {
    Coalesce(ErrorDetail(e), Null)
  }

  /** `pickErr(e) ?? fallback` is the shared error text with that fallback. */
  lemma PickErrFallback(e: JsValue, fallback: string)
    ensures Coalesce(PickErr(e), Str(fallback)) == ErrorText(e, fallback)
  {
  }

  function OnSaveFailed(v: FormView, e: JsValue): (r: Step)
    ensures r.view == v.(saving := false, err := ErrorText(e, "Save failed")) && r.effects == []
  {
    PickErrFallback(e, "Save failed");
    Step(v.(saving := false, err := Coalesce(PickErr(e), Str("Save failed"))), [])
  }

  // ---------------------------------------------------------------- image

  /** `onPickImage`: messages are cleared; a picked file is previewed locally and
      uploaded at once. */
  function OnPickImage(v: FormView, file: Option<FileRef>): (r: Step)
    ensures file.None? ==> r == Step(v.(msg := None, err := Null), [])
    ensures file.Some? ==>
              && r.view == v.(msg := None, err := Null, preview := LocalFile(file.value), uploading := true)
              && r.effects == [Upload(file.value)]
  {
    var w := v.(msg := None, err := Null);
    match file
    case None => Step(w, [])
    case Some(f) => Step(w.(preview := LocalFile(f), uploading := true), [Upload(f)])
  }

  /** The upload answered with the stored path: it becomes the image URL and the preview. */
  function OnUploaded(v: FormView, url: string): Step {
    Step(v.(imageUrl := Some(url), preview := Served(url), uploading := false,
            msg := Some("Upload image ok")), [])
  }

  /** A failed upload forgets the image URL (so a later save sends none) but keeps the
      local preview. */
  function OnUploadFailed(v: FormView, e: JsValue): (r: Step)
    ensures r.view == v.(uploading := false, err := ErrorText(e, "Upload failed"), imageUrl := None)
    ensures r.effects == []
  {
    PickErrFallback(e, "Upload failed");
    Step(v.(uploading := false, err := Coalesce(PickErr(e), Str("Upload failed")), imageUrl := None), [])
  }

  /** A save after a failed upload sends no image URL, whatever was uploaded before. */
  lemma SaveAfterFailedUploadHasNoImage(v: FormView, e: JsValue)
    requires Valid(v.form)
    ensures var r := Submit(OnUploadFailed(v, e).view);
            r.effects[0].req.imageUrl == None
  {
  }

  /** A save after a successful upload sends the uploaded URL. */
  lemma SaveAfterUploadSendsUrl(v: FormView, url: string)
    requires Valid(v.form)
    ensures var r := Submit(OnUploaded(v, url).view);
            r.effects[0].req.imageUrl == Some(url)
  {
  }

  // ---------------------------------------------------------------- disable

  /** `disable`: nothing at all without a truthy product id. */
  function Disable(v: FormView): (r: Step)
    ensures !IsEdit(v) ==> r == Step(v, [])
    ensures IsEdit(v) ==>
              r.view == v.(msg := None, err := Null, saving := true)
              && r.effects == [DisableProduct(v.productId.value)]
  {
    if !IsEdit(v) then Step(v, [])
    else Step(v.(msg := None, err := Null, saving := true), [DisableProduct(v.productId.value)])
  }

  /** The product was disabled: the form's active switch is turned off. */
  function OnDisabled(v: FormView): Step {
    Step(v.(saving := false, msg := Some("Disabled product ok"), form := v.form.(isActive := false)), [])
  }

  function OnDisableFailed(v: FormView, e: JsValue): (r: Step)
    ensures r.view == v.(saving := false, err := ErrorText(e, "Disable failed")) && r.effects == []
  {
    PickErrFallback(e, "Disable failed");
    Step(v.(saving := false, err := Coalesce(PickErr(e), Str("Disable failed"))), [])
  }

  /** Disabling and then saving the same form sends an update that keeps the product
      inactive, and changes nothing else the form would send. */
  lemma DisableThenSaveKeepsInactive(v: FormView)
    requires IsEdit(v) && Valid(v.form)
    ensures var d := Disable(v);
            var r := Submit(OnDisabled(d.view).view);
            && d.effects == [DisableProduct(v.productId.value)]
            && r.effects == [Update(v.productId.value, BuildRequest(v).(isActive := Some(false)))]
  {
  }

  // ---------------------------------------------------------------- inputs and categories

  /** The form values a product patches in: every control is set. */
  function Patched(p: ProductResponse): (g: FormValue)
    ensures g.name == p.name && g.description == p.description.GetOr("")
    ensures g.stock == Some(p.stock as real) && g.price == Some(p.price)
    ensures g.categoryId == Some(p.categoryId as real) && g.isActive == p.isActive
  {
    FormValue(p.name, p.description.GetOr(""), Some(p.stock as real), Some(p.price),
              Some(p.categoryId as real), p.isActive)
  }

  /** New @Input values, then `ngOnChanges`: a changed, non-null product is patched into
      the form and its image URL taken as both the stored URL and the preview. */
  function OnInputs(v: FormView, productId: Option<Num>, product: Option<ProductResponse>,
                    productChanged: bool): (r: Step)
    ensures r.view.productId == productId && r.view.product == product && r.effects == []
    ensures productChanged && product.Some? ==>
              && r.view.form == Patched(product.value)
              && r.view.imageUrl == product.value.imageUrl
              && r.view.preview == (if product.value.imageUrl.Some? then Stored(product.value.imageUrl.value)
                                    else NoPreview)
              && r.view == v.(productId := productId, product := product, form := r.view.form,
                              imageUrl := r.view.imageUrl, preview := r.view.preview)
    ensures !(productChanged && product.Some?) ==>
              r.view == v.(productId := productId, product := product)
  {
    var w := v.(productId := productId, product := product);
    if productChanged && product.Some? then
      var p := product.value;
      Step(w.(form := Patched(p), imageUrl := p.imageUrl,
              preview := if p.imageUrl.Some? then Stored(p.imageUrl.value) else NoPreview), [])
    else Step(w, [])
  }

  /** Loading an existing product into the form and saving it unchanged sends back
      its own fields, as an update. */
  lemma PatchThenSaveEchoesProduct(v: FormView, id: Num, p: ProductResponse)
    requires id.Truthy()
    requires Valid(Patched(p))
    ensures var r := Submit(OnInputs(v, Some(id), Some(p), true).view);
            var req := r.effects[0].req;
            && r.effects[0].Update? && r.effects[0].id == id
            && req.name == p.name && req.stock == p.stock as real && req.price == p.price
            && req.categoryId == p.categoryId as real && req.isActive == Some(p.isActive)
            && req.imageUrl == p.imageUrl && req.description == Some(p.description.GetOr(""))
  {
  }

  /** The categories list arrived; a failure is only logged and leaves the list as it was. */
  function OnCategories(v: FormView, cats: seq<Category>): Step {
    Step(v.(categories := cats), [])
  }
}

=== FILE: strings.dfy ===
/** The String.prototype operations the console uses: `trim`, `toUpperCase`,
    `split`, `replace(/x/g, y)`, `.length` (UTF-16 code units), and the decimal
    text of an integer (`String(n)`) with its reading back. */
module Strings {
  import opened Js

  // ---------------------------------------------------------------- trim

  /** ECMAScript WhiteSpace and LineTerminator code points: what `trim` removes. */
  predicate IsSpace(c: char) {
    || c == '\t' || c == '\n' || c == '\U{000B}' || c == '\U{000C}' || c == '\r'
    || c == ' ' || c == '\U{00A0}' || c == '\U{1680}'
    || ('\U{2000}' <= c <= '\U{200A}')
    || c == '\U{2028}' || c == '\U{2029}' || c == '\U{202F}' || c == '\U{205F}'
    || c == '\U{3000}' || c == '\U{FEFF}'
  }

  predicate AllSpace(s: string) {
    forall k :: 0 <= k < |s| ==> IsSpace(s[k])
  }

  /** Drops leading white space: the result is a suffix of `s` that starts with
      a non-space, and everything dropped was space. */
  function TrimStart(s: string): (r: string)
    ensures |r| <= |s| && r == s[|s| - |r|..]
    ensures AllSpace(s[..|s| - |r|])
    ensures |r| > 0 ==> !IsSpace(r[0])
  {
    if |s| > 0 && IsSpace(s[0]) then TrimStart(s[1..]) else s
  }

  /** Drops trailing white space: the result is a prefix of `s` that ends with
      a non-space, and everything dropped was space. */
  function TrimEnd(s: string): (r: string)
    ensures |r| <= |s| && r == s[..|r|]
    ensures AllSpace(s[|r|..])
    ensures |r| > 0 ==> !IsSpace(r[|r| - 1])
  {
    if |s| > 0 && IsSpace(s[|s| - 1]) then TrimEnd(s[..|s| - 1]) else s
  }

  /** `r` is `s` with the white space at both ends removed, `r` starting at index `i`. */
  predicate TrimmedAt(s: string, r: string, i: nat) {
    && i + |r| <= |s|
    && r == s[i..i + |r|]
    && AllSpace(s[..i])
    && AllSpace(s[i + |r|..])
    && (|r| > 0 ==> !IsSpace(r[0]) && !IsSpace(r[|r| - 1]))
  }

  /** `s.trim()`: the infix of `s` between its leading and trailing white space. */
  function Trim(s: string): (r: string)
    ensures exists i: nat :: TrimmedAt(s, r, i)
  {
    var a := TrimStart(s);
    var r := TrimEnd(a);
    var i := |s| - |a|;
    assert s[i..i + |r|] == r;
    assert s[i + |r|..] == a[|r|..];
    assert TrimmedAt(s, r, i);
    r
  }

  /** `s.trim()` is empty exactly when `s` is all white space (or empty). */
  lemma TrimEmptyIff(s: string)
    ensures Trim(s) == "" <==> AllSpace(s)
  {
    var r := Trim(s);
    var i: nat :| TrimmedAt(s, r, i);
    if r == "" {
      forall k | 0 <= k < |s| ensures IsSpace(s[k]) {
        if k < i { assert s[..i][k] == s[k]; } else { assert s[i..][k - i] == s[k]; }
      }
    } else {
      assert s[i] == r[0];
    }
  }

  /** Trimming is idempotent. */
  lemma TrimIdempotent(s: string)
    ensures Trim(Trim(s)) == Trim(s)
  {
    var r := Trim(s);
    var i: nat :| TrimmedAt(s, r, i);
    if |r| > 0 {
      assert TrimStart(r) == r;
      assert TrimEnd(r) == r;
    }
  }

  // ---------------------------------------------------------------- upper case

  /** `toUpperCase` on one code point: ASCII letters, plus the two non-ASCII
      letters whose upper case is an ASCII letter (dotless i and long s). */
  function UpperChar(c: char): (u: char)
    ensures 'a' <= c <= 'z' ==> u as int == c as int - 32
    ensures !('a' <= c <= 'z') && c != '\U{0131}' && c != '\U{017F}' ==> u == c
  {
    if 'a' <= c <= 'z' then (c as int - 32) as char
    else if c == '\U{0131}' then 'I'
    else if c == '\U{017F}' then 'S'
    else c
  }

  /** `s.toUpperCase()`, code point by code point. */
  function Upper(s: string): (r: string)
    ensures |r| == |s|
    ensures forall k :: 0 <= k < |s| ==> r[k] == UpperChar(s[k])
  {
    if s == "" then "" else [UpperChar(s[0])] + Upper(s[1..])
  }

  /** Upper-casing twice changes nothing more. */
  lemma {:induction false} UpperIdempotent(s: string)
    ensures Upper(Upper(s)) == Upper(s)
  {
    var u := Upper(s);
    forall k | 0 <= k < |s| ensures Upper(u)[k] == u[k] {
      assert UpperChar(UpperChar(s[k])) == UpperChar(s[k]);
    }
  }

  // ---------------------------------------------------------------- replace

  /** `s.replace(/x/g, y)` for a one-character pattern. */
  function ReplaceAll(s: string, x: char, y: char): (r: string)
    ensures |r| == |s|
    ensures forall k :: 0 <= k < |s| ==> r[k] == (if s[k] == x then y else s[k])
  {
    if s == "" then "" else [if s[0] == x then y else s[0]] + ReplaceAll(s[1..], x, y)
  }

  // ---------------------------------------------------------------- length

  /** `s.length`: UTF-16 code units, so a code point above U+FFFF counts twice. */
  function Utf16Length(s: string): (n: nat)
    ensures |s| <= n <= 2 * |s|
    ensures n == |s| <==> forall k :: 0 <= k < |s| ==> s[k] as int <= 0xFFFF
  {
    if s == "" then 0
    else (if s[0] as int > 0xFFFF then 2 else 1) + Utf16Length(s[1..])
  }

  /** A code point counts one unit, or two above U+FFFF. */
  lemma Utf16LengthOne(c: char)
    ensures Utf16Length([c]) == if c as int > 0xFFFF then 2 else 1
  {
  }

  /** The length of a concatenation is the sum of the lengths; with Utf16LengthOne this
      fixes the length of every text. */
  lemma {:induction false} Utf16LengthAppend(a: string, b: string)
    ensures Utf16Length(a + b) == Utf16Length(a) + Utf16Length(b)
    decreases |a|
  {
    if a != "" {
      assert (a + b)[0] == a[0];
      assert (a + b)[1..] == a[1..] + b;
      Utf16LengthAppend(a[1..], b);
    } else {
      assert a + b == b;
    }
  }

  // ---------------------------------------------------------------- split / join

  function Count(s: string, c: char): (n: nat)
    ensures n <= |s|
    ensures n == 0 <==> c !in s
  {
    if s == "" then 0 else (if s[0] == c then 1 else 0) + Count(s[1..], c)
  }

  /** `s.split(sep)` for a one-character separator: always at least one part
      (`"".split(".")` is `[""]`), and no part contains the separator. */
  function Split(s: string, sep: char): (parts: seq<string>)
    ensures |parts| == Count(s, sep) + 1
    ensures forall i :: 0 <= i < |parts| ==> sep !in parts[i]
  {
    if s == "" then [""]
    else
      var rest := Split(s[1..], sep);
      if s[0] == sep then [""] + rest
      else [[s[0]] + rest[0]] + rest[1..]
  }

  /** `parts.join(sep)`. */
  function Join(parts: seq<string>, sep: char): string
    requires |parts| >= 1
  {
    if |parts| == 1 then parts[0] else parts[0] + [sep] + Join(parts[1..], sep)
  }

  /** Splitting and joining again gives back the original text. */
  lemma {:induction false} JoinSplit(s: string, sep: char)
    ensures Join(Split(s, sep), sep) == s
  {
    if s != "" {
      var rest := Split(s[1..], sep);
      JoinSplit(s[1..], sep);
      if s[0] == sep {
        assert Split(s, sep) == [""] + rest;
        assert ([""] + rest)[1..] == rest;
        assert s == [sep] + s[1..];
      } else if |rest| == 1 {
        assert s == [s[0]] + s[1..];
      } else {
        var parts := Split(s, sep);
        assert parts[1..] == rest[1..];
        assert Join(rest, sep) == rest[0] + [sep] + Join(rest[1..], sep);
        assert s == [s[0]] + s[1..];
      }
    }
  }

  /** Text without the separator is one part. */
  lemma SplitNoSep(s: string, sep: char)
    requires sep !in s
    ensures Split(s, sep) == [s]
  {
    var p := Split(s, sep);
    JoinSplit(s, sep);
  }

  /** A separator-free head splits off as the first part. */
  lemma {:induction false} SplitCons(head: string, sep: char, rest: string)
    requires sep !in head
    ensures Split(head + [sep] + rest, sep) == [head] + Split(rest, sep)
  {
    var t := head + [sep] + rest;
    if head == "" {
      assert t == [sep] + rest;
      assert t[1..] == rest;
    } else {
      assert t[1..] == head[1..] + [sep] + rest;
      SplitCons(head[1..], sep, rest);
      var r := Split(t[1..], sep);
      assert r == [head[1..]] + Split(rest, sep);
      assert r[0] == head[1..];
      assert r[1..] == Split(rest, sep);
      assert t[0] == head[0] && t[0] != sep;
      assert Split(t, sep) == [[t[0]] + r[0]] + r[1..];
      assert [head[0]] + head[1..] == head;
    }
  }

  /** Joining separator-free parts and splitting again gives back the parts. */
  lemma {:induction false} SplitJoin(parts: seq<string>, sep: char)
    requires |parts| >= 1
    requires forall i :: 0 <= i < |parts| ==> sep !in parts[i]
    ensures Split(Join(parts, sep), sep) == parts
    decreases |parts|
  {
    if |parts| == 1 {
      SplitNoSep(parts[0], sep);
    } else {
      SplitJoin(parts[1..], sep);
      SplitCons(parts[0], sep, Join(parts[1..], sep));
      assert [parts[0]] + parts[1..] == parts;
    }
  }

  /** Fewer than two parts exactly when the separator does not occur. */
  lemma SplitFewerThanTwo(s: string, sep: char)
    ensures |Split(s, sep)| < 2 <==> sep !in s
  {
  }

  // ---------------------------------------------------------------- decimal text

  predicate IsDigit(c: char) {
    '0' <= c <= '9'
  }

  predicate AllDigits(s: string) {
    forall k :: 0 <= k < |s| ==> IsDigit(s[k])
  }

  function DigitChar(d: nat): (c: char)
    requires d < 10
    ensures IsDigit(c) && c as int - '0' as int == d
  {
    (d + '0' as int) as char
  }

  /** The decimal digits of `n`, most significant first, without leading zeros. */
  function NatToString(n: nat): (r: string)
    ensures |r| >= 1 && AllDigits(r)
    ensures |r| > 1 ==> r[0] != '0'
  {
    if n < 10 then [DigitChar(n)] else NatToString(n / 10) + [DigitChar(n % 10)]
  }

  /** `String(n)` for an integer. */
  function IntToString(n: int): (r: string)
    ensures |r| >= 1
    ensures n < 0 <==> r[0] == '-'
    ensures '/' !in r && '.' !in r
  {
    var r := if n < 0 then "-" + NatToString(-n) else NatToString(n);
    assert forall k :: 0 <= k < |r| ==> IsDigit(r[k]) || r[k] == '-';
    r
  }

  /** The value of a digit string. */
  function DigitsValue(s: string): nat
    requires AllDigits(s)
  {
    if s == "" then 0 else DigitsValue(s[..|s| - 1]) * 10 + (s[|s| - 1] as int - '0' as int)
  }

  /** Reads a decimal integer: an optional minus sign and at least one digit. */
  function ParseInt(s: string): (r: Option<int>)
    ensures r.Some? ==> |s| >= 1
  {
    if |s| >= 2 && s[0] == '-' && AllDigits(s[1..]) then Some(0 - DigitsValue(s[1..]) as int)
    else if |s| >= 1 && AllDigits(s) then Some(DigitsValue(s))
    else None
  }

  lemma {:induction false} DigitsValueOfNat(n: nat)
    ensures DigitsValue(NatToString(n)) == n
  {
    if n >= 10 {
      var r := NatToString(n);
      DigitsValueOfNat(n / 10);
      assert r[..|r| - 1] == NatToString(n / 10);
    }
  }

  /** Reading back the decimal text of an integer gives the integer. */
  lemma ParseIntToString(n: int)
    ensures ParseInt(IntToString(n)) == Some(n)
  {
    if n < 0 {
      DigitsValueOfNat(-n);
      assert IntToString(n)[1..] == NatToString(-n);
    } else {
      DigitsValueOfNat(n);
    }
  }
}

=== FILE: upload.dfy ===
/** The progress-reporting upload (admin-product.service.ts, `uploadImageWithProgress`):
    the HTTP event stream is filtered to upload-progress and response events and each
    is mapped to a `{progress, url?}` update. */
module Upload {
  import opened Js

  /** The body of the upload response: `{ data: url }`. */
  datatype UploadBody = UploadBody(data: Option<string>)

  /** Angular's HttpEvent kinds. Byte counts are non-negative; `total` may be unknown. */
  datatype HttpEvent =
    | Sent
    | UploadProgress(loaded: nat, total: Option<int>)
    | ResponseHeader
    | DownloadProgress(loaded: nat, total: Option<int>)
    | Response(body: Option<UploadBody>)
    | User

  datatype UploadUpdate = UploadUpdate(progress: int, url: Option<string>)

  /** `Math.round(100 * loaded / total)`, rounding halves up, in integers. */
  function Percent(loaded: nat, total: int): (p: int)
    requires total > 0
    ensures 2 * p * total <= 200 * loaded + total < 2 * p * total + 2 * total
  {
    (200 * loaded + total) / (2 * total)
  }

  /** An integer whose multiple by a positive number stays below that number is below one. */
  lemma BelowOne(d: int, t: int)
    requires t > 0 && d * t < t
    ensures d < 1
  {
  }

  /** The rounding characterises the percentage: no other integer is within half a
      percent of the exact ratio in the rounding's direction. */
  lemma PercentUnique(loaded: nat, total: int, q: int)
    requires total > 0
    requires 2 * q * total <= 200 * loaded + total < 2 * q * total + 2 * total
    ensures q == Percent(loaded, total)
  {
    var p := Percent(loaded, total);
    assert (q - p) * total == q * total - p * total;
    assert (p - q) * total == p * total - q * total;
    BelowOne(q - p, total);
    BelowOne(p - q, total);
  }

  /** Within the transfer the percentage lies in 0..100 and hits 0 and 100 at the ends. */
  lemma PercentBounds(loaded: nat, total: int)
    requires 0 < total && loaded <= total
    ensures 0 <= Percent(loaded, total) <= 100
    ensures loaded == 0 ==> Percent(loaded, total) == 0
    ensures loaded == total ==> Percent(loaded, total) == 100
  {
    var p := Percent(loaded, total);
    assert p <= 100 by {
      assert (p - 100) * total == p * total - 100 * total;
      BelowOne(p - 100, total);
    }
    assert 0 <= p by {
      assert (0 - p) * total == 0 - p * total;
      BelowOne(0 - p, total);
    }
    if loaded == 0 {
      BelowOne(p, total);
    }
    if loaded == total {
      PercentUnique(loaded, total, 100);
    }
  }

  /** The percentage never goes down as more bytes are sent. */
  lemma PercentMonotone(a: nat, b: nat, total: int)
    requires 0 < total && a <= b
    ensures Percent(a, total) <= Percent(b, total)
  {
    var pa := Percent(a, total);
    var pb := Percent(b, total);
    assert (pa - pb) * total == pa * total - pb * total;
    BelowOne(pa - pb, total);
  }

  /** The update one event becomes, or None for the event kinds the filter drops. */
  function ToUpdate(e: HttpEvent): (r: Option<UploadUpdate>)
    ensures r.Some? <==> e.UploadProgress? || e.Response?
    ensures e.UploadProgress? && e.total.GetOr(0) <= 0 ==> r == Some(UploadUpdate(0, None))
    ensures e.UploadProgress? && e.total.GetOr(0) > 0 ==>
              r == Some(UploadUpdate(Percent(e.loaded, e.total.value), None))
    ensures e.Response? ==>
              r == Some(UploadUpdate(100, if e.body.Some? then e.body.value.data else None))
  {
    match e
    case UploadProgress(loaded, total) =>
      var t := total.GetOr(0);
      Some(UploadUpdate(if t > 0 then Percent(loaded, t) else 0, None))
    case Response(body) =>
      Some(UploadUpdate(100, match body case Some(b) => b.data case None => None))
    case _ => None
  }

  /** A well-formed event yields a percentage within 0..100. */
  lemma UpdateInRange(e: HttpEvent)
    ensures WellFormed(e) && ToUpdate(e).Some? ==> 0 <= ToUpdate(e).value.progress <= 100
  {
    if e.UploadProgress? && e.total.GetOr(0) > 0 && WellFormed(e) {
      PercentBounds(e.loaded, e.total.value);
    }
  }

  predicate Kept(e: HttpEvent) {
    e.UploadProgress? || e.Response?
  }

  /** An upload-progress event within its bounds: loaded never exceeds a known total. */
  predicate WellFormed(e: HttpEvent) {
    e.UploadProgress? && e.total.Some? && e.total.value > 0 ==> e.loaded <= e.total.value
  }

  /** The updates one event contributes: none or exactly one. */
  function Head(e: HttpEvent): seq<UploadUpdate> {
    if Kept(e) then [ToUpdate(e).value] else []
  }

  function CountKept(events: seq<HttpEvent>): nat {
    if events == [] then 0 else (if Kept(events[0]) then 1 else 0) + CountKept(events[1..])
  }

  /** The observable of updates: filter, then map. */
  function Updates(events: seq<HttpEvent>): (r: seq<UploadUpdate>)
    ensures |r| == CountKept(events)
    ensures (forall i :: 0 <= i < |events| ==> WellFormed(events[i])) ==>
              forall j :: 0 <= j < |r| ==> 0 <= r[j].progress <= 100
    ensures forall j :: 0 <= j < |r| && r[j].url.Some? ==> r[j].progress == 100
  {
    if events == [] then []
    else
      UpdateInRange(events[0]);
      Head(events[0]) + Updates(events[1..])
  }

  /** Mapping distributes over concatenation of the event stream. */
  lemma {:induction false} UpdatesAppend(a: seq<HttpEvent>, b: seq<HttpEvent>)
    ensures Updates(a + b) == Updates(a) + Updates(b)
    decreases |a|
  {
    if a != [] {
      assert (a + b)[0] == a[0];
      assert (a + b)[1..] == a[1..] + b;
      UpdatesAppend(a[1..], b);
      calc {
        Updates(a + b);
        Head(a[0]) + Updates(a[1..] + b);
        Head(a[0]) + (Updates(a[1..]) + Updates(b));
        (Head(a[0]) + Updates(a[1..])) + Updates(b);
        Updates(a) + Updates(b);
      }
    } else {
      assert a + b == b;
    }
  }

  /** A single event contributes exactly the update it maps to, or nothing if the
      filter drops it; with UpdatesAppend this fixes the whole stream. */
  lemma UpdatesOne(e: HttpEvent)
    ensures Updates([e]) == (if Kept(e) then [ToUpdate(e).value] else [])
  {
    assert [e][1..] == [];
  }

  /** A stream that ends with the response ends with the final update: 100 and the URL. */
  lemma FinalUpdateCarriesUrl(events: seq<HttpEvent>, url: string)
    ensures var r := Updates(events + [Response(Some(UploadBody(Some(url))))]);
            |r| >= 1 && r[|r| - 1] == UploadUpdate(100, Some(url))
  {
    var last := [Response(Some(UploadBody(Some(url))))];
    UpdatesAppend(events, last);
    assert Updates(last) == [UploadUpdate(100, Some(url))];
  }
}

=== FILE: validators.dfy ===
/** Angular's built-in validators as the two forms use them. Every validator
    except `required` accepts an empty value, so emptiness is the job of
    `required` alone. Lengths are JavaScript lengths (UTF-16 code units). */
module Validators {
  import opened Js
  import opened Strings

  /** `Validators.required` on a text control: the empty string fails. */
  predicate RequiredText(s: string) {
    s != ""
  }

  /** `Validators.required` on a number control: an emptied input (null) fails. */
  predicate RequiredNumber(x: Option<real>) {
    x.Some?
  }

  /** `Validators.maxLength(n)`. */
  predicate MaxLength(s: string, n: nat) {
    Utf16Length(s) <= n
  }

  /** `Validators.minLength(n)`: the empty string passes. */
  predicate MinLength(s: string, n: nat) {
    s == "" || Utf16Length(s) >= n
  }

  /** `Validators.min(m)`: an empty control passes. */
  predicate Min(x: Option<real>, m: real) {
    x.None? || x.value >= m
  }

  /** `Validators.email`, with the address pattern left as a parameter: the empty string passes. */
  predicate Email(s: string, isEmail: string -> bool) {
    s == "" || isEmail(s)
  }
}
